=== FILE: README.md ===
# Java_MAll checkout core in Dafny

A model of the order path of the Java_MAll shop. It covers:

- the checkout transaction (`OrderServlet.doPost` and `OrderDAO.createOrder`);
- the other order endpoints (read, delete, status update) and their ownership checks;
- the cart (`CartDAO`) and the catalog (`ProductDAO`), including soft deletion;
- the JWT gate in front of every servlet (`AuthFilter`);
- the request handling of the statistics endpoint (`StatsServlet`), including the `limit` clamp;
- the client-side navigation guard of the Vue router (`frontend/src/router/index.ts`).

The database is one immutable `Store` holding every table as a map from primary key to row, together with the auto-increment counters. Every DAO call is a function from a store to a `Step` (its Java result and the store after it). A rolled-back transaction returns the store it was given. Servlets are functions from the store, the request attributes, the path and the parsed body to a reply status and the next store.

The parts of the Java platform that decide outcomes are modelled as follows:

- `int` addition wraps (`JavaLang.AddInt`);
- `Integer.parseInt` accepts an optional sign and ASCII digits, within the `int` range (other Unicode digits are listed under Left out);
- `String.split` drops trailing empty strings;
- `equalsIgnoreCase`/`toLowerCase` are restricted to ASCII.

`BigDecimal` amounts are Dafny `real`s, which are exact like the source's decimal arithmetic.

Files: `wrappers.dfy` (Option), `java_lang.dfy`, `http.dfy` (status codes, request attributes), `model.dfy` (rows, store, schema invariants), `product_dao.dfy`, `cart_dao.dfy`, `order_dao.dfy`, `order_servlet.dfy`, `auth_filter.dfy`, `stats_servlet.dfy`, `router.dfy`.

In these places the model follows what the code does:

- `createOrder` deletes every cart id the client listed, not only the rows the order was built from (see Findings).
- The transaction inserts the header and the items before it decrements stock. A shortfall discovered during the decrement rolls everything back and is reported only as `-1`, which the servlet answers with 500. There is no separate "insufficient stock" reply.
- The stock decrement does not look at `is_deleted`, so a soft-deleted product can still be sold from an old cart row.
- The item name that the order read paths return is the product's current name, taken through a join. The price and quantity returned are the ones captured at purchase.
- Order status is a free-form string.
- In `doGet` and `doDelete` a user id that does not parse throws outside the `try`, so the reply is 500 and not 400.

## Model

| member | source | states |
|---|---|---|
| JavaLang.AddInt | backend/src/main/java/com/mall/dao/CartDAO.java:25 | Java `int` addition: the result is congruent to the exact sum modulo 2^32 and equals it when the sum fits |
| JavaLang.AddIntUnique | backend/src/main/java/com/mall/dao/CartDAO.java:25 | only one 32-bit value is congruent to the exact sum, so `AddInt` is the unique two's-complement result |
| JavaLang.ParseInt | backend/src/main/java/com/mall/servlet/OrderServlet.java:56 | `Integer.parseInt` succeeds only on an optional sign followed by at least one digit, and then gives that string's signed decimal value |
| JavaLang.ParseIntAccepts | backend/src/main/java/com/mall/servlet/OrderServlet.java:56 | a signed or unsigned digit string is accepted exactly when its value fits in an `int` |
| JavaLang.ParseShowRoundTrip | backend/src/main/java/com/mall/servlet/StatsServlet.java:127 | parsing the decimal text of any `int` gives the `int` back |
| JavaLang.JoinPieces | backend/src/main/java/com/mall/servlet/OrderServlet.java:215 | the pieces between separators, joined back with the separator, give the original path |
| JavaLang.Split | backend/src/main/java/com/mall/servlet/OrderServlet.java:215 | `split` on a path without the separator gives the path alone; otherwise the pieces between separators with exactly the trailing empty pieces removed |
| JavaLang.SplitOneSegment | backend/src/main/java/com/mall/servlet/OrderServlet.java:215-216 | `/seg` followed by any number of `/` splits into exactly an empty string and `seg` |
| JavaLang.ToLower | backend/src/main/java/com/mall/servlet/StatsServlet.java:84 | lower-casing keeps the length and maps every character independently |
| JavaLang.ToLowerIdempotent | backend/src/main/java/com/mall/servlet/StatsServlet.java:84 | lower-casing an already lower-cased string changes nothing, so a lower-case kind names itself |
| Model.KeysBetween | backend/src/main/java/com/mall/dao/ProductDAO.java:63 | the keys of a table within a range, strictly increasing, containing exactly the keys in range (primary-key order of a query result) |
| ProductDao.FirstLiveNamed | backend/src/main/java/com/mall/dao/ProductDAO.java:17-23 | the name lookup finds the first live product of that name, and finds none exactly when no live product has it |
| ProductDao.CreateProductAsWritten | backend/src/main/java/com/mall/dao/ProductDAO.java:15-57 | as written, a merge into a live product of the same name overwrites description, price and image, stores the 32-bit wrapped sum of the stocks, and changes no other row or table; otherwise exactly one new row is inserted under the next key |
| ProductDao.CreateProductAsWrittenOverflows | backend/src/main/java/com/mall/dao/ProductDAO.java:27 | merging one unit into a product holding `Integer.MAX_VALUE` units stores a negative stock |
| ProductDao.CreateProduct | backend/src/main/java/com/mall/dao/ProductDAO.java:17-50 | creation merges into the live product of that name (exact stock sum, refused beyond `int`) or inserts one new row; a refusal changes nothing |
| ProductDao.CreateProductMerges | backend/src/main/java/com/mall/dao/ProductDAO.java:23-37 | a merge overwrites description, price and image, adds the stock, keeps the name, and touches no other row or table |
| ProductDao.CreateProductIgnoresDeletedNames | backend/src/main/java/com/mall/dao/ProductDAO.java:39-50 | a name held only by soft-deleted products is free: creation succeeds with a fresh key |
| ProductDao.CreateProductPreservesValid | backend/src/main/java/com/mall/dao/ProductDAO.java:17-50 | creation keeps every schema invariant, in particular no negative stock |
| ProductDao.LiveDescending | backend/src/main/java/com/mall/dao/ProductDAO.java:63 | the live products among the keys, each from the table, none missed, in descending key order |
| ProductDao.GetAllProducts | backend/src/main/java/com/mall/dao/ProductDAO.java:60-75 | exactly the products not soft-deleted, newest id first |
| ProductDao.GetProductById | backend/src/main/java/com/mall/dao/ProductDAO.java:78-93 | a product is found exactly when it exists and is not soft-deleted, and the row is returned unchanged |
| ProductDao.UpdateProduct | backend/src/main/java/com/mall/dao/ProductDAO.java:96-113 | an update succeeds exactly on a live product, replaces all editable fields of that row only, and otherwise changes nothing |
| ProductDao.UpdateProductPreservesValid | backend/src/main/java/com/mall/dao/ProductDAO.java:96-113 | an update with a non-negative stock keeps the store valid |
| ProductDao.UpdateProductValidIff | backend/src/main/java/com/mall/dao/ProductDAO.java:96-113 | over a valid store, an update keeps it valid exactly when it finds no live row or its stock is not negative |
| ProductDao.DeleteProduct | backend/src/main/java/com/mall/dao/ProductDAO.java:116-128 | soft deletion succeeds exactly for an existing row, flags it and keeps it, and changes no other row |
| ProductDao.DeleteProductIdempotent | backend/src/main/java/com/mall/dao/ProductDAO.java:116-128 | deleting twice leaves the same store as deleting once, and both calls report success |
| ProductDao.DeletedProductInvisible | backend/src/main/java/com/mall/dao/ProductDAO.java:79 | after soft deletion the product is gone from both read paths but its row remains |
| ProductDao.DeleteProductPreservesValid | backend/src/main/java/com/mall/dao/ProductDAO.java:116-128 | soft deletion keeps the store valid |
| CartDao.StockOf | backend/src/main/java/com/mall/dao/CartDAO.java:112-126 | the stock of a live product, and 0 for a missing or soft-deleted one |
| CartDao.FirstRowFor | backend/src/main/java/com/mall/dao/CartDAO.java:129-144 | the lookup returns a row of this customer and product, and returns none only when there is none among the keys |
| CartDao.RowFor | backend/src/main/java/com/mall/dao/CartDAO.java:129-144 | in a valid store, the customer's row for the product is found exactly when it exists |
| CartDao.AddOrUpdateCartItem | backend/src/main/java/com/mall/dao/CartDAO.java:14-46 | an add succeeds exactly when the product has stock and the cart quantity plus the added units stays within it; it then grows the existing row or inserts one, and a refusal changes nothing |
| CartDao.AddKeepsWithinStock | backend/src/main/java/com/mall/dao/CartDAO.java:25 | after a successful add, the customer's single row for the product holds no more than the stock |
| CartDao.AddPreservesValid | backend/src/main/java/com/mall/dao/CartDAO.java:31-41 | an add keeps the one-row-per-customer-and-product key and positive quantities |
| CartDao.AddGuardWrapsButColumnRefuses | backend/src/main/java/com/mall/dao/CartDAO.java:25 | the Java guard alone wraps and would pass an add of `Integer.MAX_VALUE` units, but the exact comparison refuses it |
| CartDao.EntriesOf | backend/src/main/java/com/mall/dao/CartDAO.java:50-78 | every listed entry is one of the customer's rows joined with its product, in key order |
| CartDao.EntriesOfComplete | backend/src/main/java/com/mall/dao/CartDAO.java:50-78 | no row of the customer among the keys is missed |
| CartDao.GetCartItems | backend/src/main/java/com/mall/dao/CartDAO.java:50-78 | exactly the customer's rows whose product exists, each with the product's current name, price and stock, in cart-id order |
| CartDao.UpdateCartQuantity | backend/src/main/java/com/mall/dao/CartDAO.java:81-94 | the update succeeds exactly for an existing row, sets its quantity and nothing else, whoever owns it |
| CartDao.RemoveCartItem | backend/src/main/java/com/mall/dao/CartDAO.java:97-109 | removal reports whether the row existed and deletes that row and no other |
| CartDao.UpdateIgnoresStock | backend/src/main/java/com/mall/dao/CartDAO.java:82-89 | a direct quantity update may exceed the stock, unlike an add |
| CartDao.UpdateAndRemovePreserveValid | backend/src/main/java/com/mall/dao/CartDAO.java:81-109 | updating or removing a cart row keeps the store valid |
| OrderDao.InsertItems | backend/src/main/java/com/mall/dao/OrderDAO.java:61-72 | one item row per line, under consecutive fresh keys, in line order; older items unchanged |
| OrderDao.Reserve | backend/src/main/java/com/mall/dao/OrderDAO.java:76-92 | successful conditional decrements change only stock and never take it below zero |
| OrderDao.DemandNonNegative | backend/src/main/java/com/mall/dao/OrderDAO.java:76-92 | the units the lines ask of a product are never negative |
| OrderDao.DemandAbsent | backend/src/main/java/com/mall/dao/OrderDAO.java:76-92 | a product no line names is asked for nothing |
| OrderDao.CoveredAfterFirst | backend/src/main/java/com/mall/dao/OrderDAO.java:76-92 | after the first decrement, the remaining lines are covered by the new stock exactly when all lines were covered by the old one |
| OrderDao.ReserveExact | backend/src/main/java/com/mall/dao/OrderDAO.java:76-92 | the batch of conditional decrements succeeds exactly when each product's stock covers the total demand for it, and then subtracts exactly that demand |
| OrderDao.DeleteCartRows | backend/src/main/java/com/mall/dao/OrderDAO.java:96-113 | the batched deletes succeed exactly when every id names a distinct existing row, and then remove exactly those rows |
| OrderDao.CreateOrder | backend/src/main/java/com/mall/dao/OrderDAO.java:25-148 | the transaction returns the new order id or -1; it commits exactly when the stock decrements and the cart deletes succeed, then adds a PENDING header with customer, total and address and removes the listed cart rows; -1 leaves the store unchanged |
| OrderDao.CreateOrderRecordsLines | backend/src/main/java/com/mall/dao/OrderDAO.java:38-72 | a committed order has one new item per line, in line order, under fresh consecutive keys, with the line's product, name, price and quantity; no earlier item changes |
| OrderDao.CreateOrderCommitsIff | backend/src/main/java/com/mall/dao/OrderDAO.java:76-113 | commit happens exactly when the stock covers every product's demand and the cart ids are distinct existing rows |
| OrderDao.CreateOrderPreservesValid | backend/src/main/java/com/mall/dao/OrderDAO.java:76-92 | a checkout keeps every schema invariant, in particular no stock goes negative |
| OrderDao.CommitValid | backend/src/main/java/com/mall/dao/OrderDAO.java:38-117 | a commit that keeps product keys with no negative stock, only removes cart rows, adds one header under the next key and puts the new items under it leaves a valid store |
| OrderDao.ItemsValidAfterInsert | backend/src/main/java/com/mall/dao/OrderDAO.java:61-72 | new items under an existing header keep every item attached to an existing header under its own key |
| OrderDao.LastUnitSoldOnce | backend/src/main/java/com/mall/dao/OrderDAO.java:76 | of two orders for the last unit, the first commits and the second is rolled back |
| OrderDao.ItemsNotOf | backend/src/main/java/com/mall/dao/OrderDAO.java:336-340 | the items of every other order, unchanged |
| OrderDao.DeleteOrder | backend/src/main/java/com/mall/dao/OrderDAO.java:310-376 | deletion succeeds exactly for an existing order of this customer or for an administrator, removes the header and all its items, and otherwise changes nothing |
| OrderDao.DeleteOrderLeavesOthers | backend/src/main/java/com/mall/dao/OrderDAO.java:336-351 | no item of the deleted order remains, and every other order and item is kept |
| OrderDao.DeleteOrderPreservesValid | backend/src/main/java/com/mall/dao/OrderDAO.java:310-376 | order deletion keeps the store valid |
| OrderDao.UpdateOrderStatus | backend/src/main/java/com/mall/dao/OrderDAO.java:251-266 | the update succeeds exactly for an existing order and changes only its status |
| OrderDao.UpdateOrderStatusIdempotent | backend/src/main/java/com/mall/dao/OrderDAO.java:251-266 | setting the same status twice equals setting it once |
| OrderDao.UpdateOrderStatusPreservesValid | backend/src/main/java/com/mall/dao/OrderDAO.java:251-266 | a status update keeps the store valid |
| OrderDao.ItemsOf | backend/src/main/java/com/mall/dao/OrderDAO.java:153-180 | each listed item belongs to the order, is joined with its product, and the list is in key order |
| OrderDao.ItemsOfComplete | backend/src/main/java/com/mall/dao/OrderDAO.java:153-180 | no item of the order among the keys is missed |
| OrderDao.GetOrderItems | backend/src/main/java/com/mall/dao/OrderDAO.java:153-180 | exactly the order's items whose product row exists, with the purchase price and quantity, in item-id order |
| OrderDao.ItemsOfUnderProductChange | backend/src/main/java/com/mall/dao/OrderDAO.java:156-158 | changing product rows without adding or removing any keeps the item list's length, ids, prices and quantities |
| OrderDao.ProductUpdateKeepsPurchasePrice | backend/src/main/java/com/mall/dao/OrderDAO.java:156-158 | editing a product after purchase leaves every order's prices and quantities as bought |
| OrderDao.ProductDeleteKeepsOrderItems | backend/src/main/java/com/mall/dao/OrderDAO.java:156-158 | soft-deleting a product leaves every order's item list unchanged |
| OrderDao.CustomerName | backend/src/main/java/com/mall/dao/OrderDAO.java:219 | the customer's username, or `Customer ` followed by the id when it is NULL |
| OrderDao.GetOrderById | backend/src/main/java/com/mall/dao/OrderDAO.java:217-246 | an order is found exactly when it and its customer row exist, and it carries that header's customer, total, address and status, the customer's name and its items |
| OrderDao.GetOrdersByCustomer | backend/src/main/java/com/mall/dao/OrderDAO.java:185-212 | exactly this customer's orders, each with its header's total, address and status, no customer name, and its items |
| OrderDao.GetAllOrders | backend/src/main/java/com/mall/dao/OrderDAO.java:273-301 | exactly the orders whose customer row exists, each as reading that order by id returns it |
| OrderServlet.Picked | backend/src/main/java/com/mall/servlet/OrderServlet.java:88-101 | the rows taken are exactly the priced cart rows whose id was requested, in cart order |
| OrderServlet.PickedIncreasing | backend/src/main/java/com/mall/servlet/OrderServlet.java:88-101 | rows picked from a view in ascending cart-id order stay ascending, so no id is picked twice |
| OrderServlet.Lines | backend/src/main/java/com/mall/servlet/OrderServlet.java:103-119 | one order line per picked row |
| OrderServlet.CartIds | backend/src/main/java/com/mall/servlet/OrderServlet.java:99-101 | one cart id per picked row |
| OrderServlet.PickedSnoc | backend/src/main/java/com/mall/servlet/OrderServlet.java:88-101 | picking processes the cart view one row at a time, appending a chosen row |
| OrderServlet.LinesSnoc | backend/src/main/java/com/mall/servlet/OrderServlet.java:103-119 | lines and ids grow by one per appended row |
| OrderServlet.ResolveCart | backend/src/main/java/com/mall/servlet/OrderServlet.java:85-123 | the loop yields exactly the lines and ids of the picked rows, and the total is the exact sum of price times quantity |
| OrderServlet.Prepare | backend/src/main/java/com/mall/servlet/OrderServlet.java:52-130 | before the DAO call: 401 without a user, 400 for a missing address, empty id list or nothing resolved, otherwise the picked rows of this customer |
| OrderServlet.Place | backend/src/main/java/com/mall/servlet/OrderServlet.java:147-163 | 201 with the new order id when the transaction commits, else 500 with the store unchanged |
| OrderServlet.HandlePostAsWritten | backend/src/main/java/com/mall/servlet/OrderServlet.java:42-176 | as written, checkout answers 201, 400, 401 or 500; anything but 201 changes nothing, and 201 removes every requested cart id |
| OrderServlet.HandlePost | backend/src/main/java/com/mall/servlet/OrderServlet.java:42-176 | the corrected checkout answers 201, 400, 401 or 500; anything but 201 changes nothing, and 201 removes exactly the picked rows |
| OrderServlet.PostRejectsIncompleteRequest | backend/src/main/java/com/mall/servlet/OrderServlet.java:75-78 | a missing address or an empty id list gets 400 with no write |
| OrderServlet.PostRejectsWhenNothingResolves | backend/src/main/java/com/mall/servlet/OrderServlet.java:127-130 | when no requested id names a priced row of the customer's cart, both the as-written and the corrected POST reply 400 with no write |
| OrderServlet.PostLinesCapturePrices | backend/src/main/java/com/mall/servlet/OrderServlet.java:103-121 | every order line comes from a requested cart row owned by this customer, with that row's product, name, current price and quantity |
| OrderServlet.PostCreatesIff | backend/src/main/java/com/mall/servlet/OrderServlet.java:127-163 | in a valid store the corrected checkout creates the order exactly when the checks pass and the stock covers the lines, and consumes only the customer's own rows |
| OrderServlet.PostAsWrittenCreatesIff | backend/src/main/java/com/mall/servlet/OrderServlet.java:127-163 | in a valid store the checkout as written creates the order exactly when the checks pass, the stock covers the lines and every requested id, resolved or not, is a distinct cart row; it then removes all requested rows |
| OrderServlet.PickedFromCart | backend/src/main/java/com/mall/servlet/OrderServlet.java:82-101 | the rows picked from a customer's cart view are that customer's own, with distinct ids and non-negative quantities |
| OrderServlet.PlaceCommits | backend/src/main/java/com/mall/servlet/OrderServlet.java:147-154 | when the stock covers the lines and the cart ids are distinct existing rows, the reply is 201 and exactly those rows leave the cart |
| OrderServlet.TwoCartsPlan | backend/src/main/java/com/mall/servlet/OrderServlet.java:88-130 | customer 1 asking for rows 1 and 2 gets an order built from row 1 only |
| OrderServlet.PrepareReady | backend/src/main/java/com/mall/servlet/OrderServlet.java:52-130 | a well-formed request with a usable row reaches the DAO call with exactly the picked rows |
| OrderServlet.PostAsWrittenConsumesForeignRow | backend/src/main/java/com/mall/servlet/OrderServlet.java:147 | as written, customer 1's order deletes customer 2's cart row |
| OrderServlet.PostKeepsForeignRow | backend/src/main/java/com/mall/servlet/OrderServlet.java:147 | the corrected checkout places the same order and keeps customer 2's cart row |
| OrderServlet.HandleGet | backend/src/main/java/com/mall/servlet/OrderServlet.java:180-252 | 401 without a user; no path or `/` lists exactly the requester's own orders; `/all` lists every order to administrators and is 403 otherwise; a non-administrator only ever receives orders of their own |
| OrderServlet.OrderPath | backend/src/main/java/com/mall/servlet/OrderServlet.java:215-217 | a numeric single segment is neither the own list nor `/all`, and splits into exactly that segment |
| OrderServlet.GetOrderAccess | backend/src/main/java/com/mall/servlet/OrderServlet.java:219-237 | reading one order: 404 exactly when it is missing, 403 exactly for a requester who neither owns it nor is an administrator, 200 with the order otherwise |
| OrderServlet.HandleDelete | backend/src/main/java/com/mall/servlet/OrderServlet.java:256-318 | 401 without a user; any reply but 200 leaves the store unchanged |
| OrderServlet.DeleteOrderAccess | backend/src/main/java/com/mall/servlet/OrderServlet.java:279-304 | deleting one order: 404 when missing, 403 for a non-owner non-administrator, otherwise 200 with the order and all its items gone |
| OrderServlet.RequestedStatus | backend/src/main/java/com/mall/servlet/OrderServlet.java:355-358 | `orderStatus` wins over `status`; a missing field falls through to the other, and a non-string is a cast failure |
| OrderServlet.HandlePut | backend/src/main/java/com/mall/servlet/OrderServlet.java:322-392 | 401 without a user and 403 for a non-administrator, both before the path is read; only the orders table can change, and only on 200 |
| OrderServlet.PutStatusPrecedence | backend/src/main/java/com/mall/servlet/OrderServlet.java:355-377 | an administrator's update sets the status named by `orderStatus` whatever `status` says, 200 when the order exists and 404 otherwise |
| OrderServlet.PutRejectsEmptyStatus | backend/src/main/java/com/mall/servlet/OrderServlet.java:360-364 | an absent or empty status gets 400 and changes nothing |
| AuthFilter.ErrorMessage | backend/src/main/java/com/mall/filter/AuthFilter.java:102 | every error message is the `JWT_FAILURE_` prefix followed by the given text or the fallback |
| AuthFilter.ErrorMessageInjective | backend/src/main/java/com/mall/filter/AuthFilter.java:102 | different texts give different messages |
| AuthFilter.FilterAsWritten | backend/src/main/java/com/mall/filter/AuthFilter.java:27-97 | as written, a forwarded request never carries the `isAdmin` attribute, and refusals are 401 or 500 with the prefixed message |
| AuthFilter.Filter | backend/src/main/java/com/mall/filter/AuthFilter.java:76-86 | the corrected filter forwards a protected request only with a Bearer header whose token verified, and copies subject, username and admin claim from it |
| AuthFilter.PreflightAnswered | backend/src/main/java/com/mall/filter/AuthFilter.java:40-44 | an OPTIONS request in any letter case is answered at once |
| AuthFilter.OpenPathsNeedNoToken | backend/src/main/java/com/mall/filter/AuthFilter.java:58-62 | login and registration pass without a token and without attributes |
| AuthFilter.BearerRequired | backend/src/main/java/com/mall/filter/AuthFilter.java:65-70 | any other request without a `Bearer ` header gets 401 before the chain runs |
| AuthFilter.TokenIsHeaderTail | backend/src/main/java/com/mall/filter/AuthFilter.java:72-77 | the outcome depends on the verifier only through what it says about the header after its seven-character prefix |
| AuthFilter.VerificationFailures | backend/src/main/java/com/mall/filter/AuthFilter.java:76-96 | a rejected token gets 401 and a verifier crash 500, both before the chain; exceptions from the chain map the same way |
| AuthFilter.AdminEndpointsUnreachable | backend/src/main/java/com/mall/filter/AuthFilter.java:84-85 | behind the filter as written every status update is refused and `/all` is never served |
| AuthFilter.AdminClaimHonoured | backend/src/main/java/com/mall/filter/AuthFilter.java:84-86 | behind the corrected filter a verified token with `isAdmin: true` makes an administrator whose status update is not refused with 403 |
| StatsServlet.ClampLimit | backend/src/main/java/com/mall/servlet/StatsServlet.java:122-133 | the limit is 10 when absent or unparsable or not positive, 100 when above 100, and the value itself otherwise |
| StatsServlet.ClampLimitIdempotent | backend/src/main/java/com/mall/servlet/StatsServlet.java:125-129 | sending a clamped limit again gives the same limit |
| StatsServlet.HandleStats | backend/src/main/java/com/mall/servlet/StatsServlet.java:37-171 | 401 without a user; the only errors are 401 and 400, and with a user every error is 400 (a malformed path or an unknown kind); no path or `/` asks for the overview (30-day window, this year, top 10); a top-products query always carries the clamped `limit` parameter, and a monthly query the given year or this year |
| StatsServlet.StatsDispatch | backend/src/main/java/com/mall/servlet/StatsServlet.java:80-148 | on a one-segment path, `top` asks for the clamped limit, `monthly` for the given or current year, `status` for the status counts, and `daily` with both dates for exactly that range |
| StatsServlet.StatsKindCaseInsensitive | backend/src/main/java/com/mall/servlet/StatsServlet.java:80-84 | a one-segment path is answered exactly when its lower-case form is a known statistic, any other kind is a 400, and the answer depends only on that form |
| StatsServlet.DailyDefaultsTogether | backend/src/main/java/com/mall/servlet/StatsServlet.java:87-94 | with either date missing, both are replaced by the seven-day window ending today |
| StatsServlet.MalformedPathRejected | backend/src/main/java/com/mall/servlet/StatsServlet.java:157-162 | a path that is not exactly one non-empty segment gets 400 |
| StatsServlet.OneSegmentPath | backend/src/main/java/com/mall/servlet/StatsServlet.java:80-82 | `/seg` with a non-empty `seg` free of `/` passes the one-segment path check with `seg` as the kind |
| Router.Merge | frontend/src/router/index.ts:56-61 | a nested route's meta takes each flag from the child when it sets one and from the parent otherwise |
| Router.MergeLaws | frontend/src/router/index.ts:56-61 | merging meta has the empty meta as unit and is associative, so a nested route's flags do not depend on how its chain of matched records is grouped |
| Router.Flatten | frontend/src/router/index.ts:21-101 | resolving the route records gives at least one entry per record |
| Router.Guard | frontend/src/router/index.ts:104-129 | navigation proceeds exactly when login and admin requirements are met and it is not a logged-in visit to login; redirects go only to login, home or admin-products |
| Router.FlattenLeaves | frontend/src/router/index.ts:21-101 | records without children resolve to one entry each, in order, with merged meta |
| Router.FlattenInherits | frontend/src/router/index.ts:61-98 | child routes that set no flags resolve to exactly their parent's flags |
| Router.FlattenSplit | frontend/src/router/index.ts:21-101 | resolving distributes over cutting the record list in two |
| Router.AdminSubtreeFlags | frontend/src/router/index.ts:55-98 | the admin route and every nested admin view need login and the administrator flag |
| Router.TableEntries | frontend/src/router/index.ts:21-101 | the resolved table is exactly the twelve named routes with their flags |
| Router.TopLevelEntries | frontend/src/router/index.ts:25-53 | the five top-level routes outside `/admin` resolve to their own flags |
| Router.AdminEntries | frontend/src/router/index.ts:56-98 | `/admin` and its six children resolve to seven entries, all needing login and the administrator flag |
| Router.TableFlags | frontend/src/router/index.ts:21-101 | every resolved route carries the flags its name is given |
| Router.TableNamesAll | frontend/src/router/index.ts:21-101 | every route name appears in the resolved table |
| Router.RedirectSettles | frontend/src/router/index.ts:108-126 | a redirect always lands on a route the guard lets through, so no navigation is redirected twice |
| Router.AdminRoutesGuarded | frontend/src/router/index.ts:108-117 | an admin route is reached exactly by a logged-in administrator; others go to login or home |
| Router.PublicRoutesOpen | frontend/src/router/index.ts:120-128 | register and home are open to all; login is open exactly to visitors not logged in |
| Router.MemberRoutesNeedLogin | frontend/src/router/index.ts:108-111 | the cart and profile need a login but no administrator flag |
| Router.UnmatchedAllowed | frontend/src/router/index.ts:128 | a location no route matches is let through |

## Left out

- JDBC connections, statement preparation, `SQLException` paths other than the modelled rollbacks, and `printStackTrace` logging are not modelled. A DAO call is a pure function of the store.
- The order-confirmation email thread (OrderServlet.java:156-157, 395-447) is I/O on a separate thread and does not affect the reply.
- JWT signing and verification (JWTUtil) are cryptography. `verify` is a parameter of the filter that reports a decoded token, `null` or an exception.
- Gson parsing is not modelled. The body arrives already parsed into fields that are present, missing or of the wrong type. `Double.intValue` on the cart ids is taken as already applied.
- The SQL aggregations of StatsDAO are not modelled. A statistics reply names the query and its parameters.
- Timestamps (`created_at`, `order_date`) are not modelled. The order lists are sets, so their `ORDER BY order_date DESC` is not modelled either. Queries without `ORDER BY` are taken to return rows in primary-key order.
- The clock is an input to the statistics endpoint: today, the starts of the 7- and 30-day windows, and the year. Date arithmetic is not modelled.
- Human-readable reply messages of the servlets are not modelled; the filter's error messages are.
- ProductDao.UpdateProductPreservesValid: the store invariant includes non-negative stock, and this lemma covers only such updates. `doPost` clamps a negative stock to 0 (ProductServlet.java:67-68), but `doPut` (ProductServlet.java:130-175) forwards any stock, and `updateProduct` stores it. ProductDao.UpdateProductValidIff shows that such an update leaves the invariant broken, after which the lemmas that assume a valid store no longer apply. CartDAO's `stock <= 0` guard and OrderDAO's `stock_quantity >= ?` decrement then treat the product as sold out.
- ProductDao.FirstLiveNamed: names are compared exactly, as under a binary, case- and accent-sensitive collation. The `name = ?` lookup of `createProduct` under MySQL's default case-insensitive collations also matches case variants (and, under `utf8mb4_general_ci`, trailing blanks): with a live product "Pen", creating "pen" with stock 5 merges into "Pen" in the source but inserts a second product in the model. The same applies to ProductDao.CreateProductAsWritten and ProductDao.CreateProduct.
- Case folding is ASCII only. Non-ASCII letters in an HTTP verb or a statistics kind are compared as they are.
- StatsServlet.HandleStats: `toLowerCase()` is taken to follow a locale with plain ASCII lower-casing. Under a Turkish default locale `DAILY` becomes `daıly` with a dotless i, and the source answers 400 where the model answers the daily query.
- JavaLang.ParseInt: accepts only the ASCII digits `0`-`9`. Java's `Integer.parseInt` also accepts every other Unicode decimal digit of the Basic Multilingual Plane (such as `٣`), so `GET /api/order/٣` and `limit=٥٠` are read as numbers by the source but not by the model.
- CartDao.AddOrUpdateCartItem and OrderDao.Reserve: assume MySQL strict SQL mode, where a value outside the `INT` column is an error that rolls the statement back. In non-strict mode the value would be clamped to 2147483647 instead, the upsert would succeed, and the added quantity could exceed the stock; AddKeepsWithinStock rests on this assumption.
- CustomerDAO, CartServlet, ProductServlet, LoginServlet and RegisterServlet are not modelled beyond the preconditions they establish for the DAOs. The frontend stores, HTTP client and image helpers are not modelled either.
- The router's URL matching is not modelled. A navigation is the route it resolves to.
- Concurrency is not modelled. Transactions run one after another, and row locks and isolation are not modelled.
- Auto-increment counters are restored on rollback. MySQL would not restore them, but no observable reply depends on the skipped keys.
- ProductDao.CreateProductAsWritten: requires a non-negative stock and a present, non-negative price, which ProductServlet.java:55-68 establishes before calling.
- ProductDao.CreateProduct: requires the same caller guarantees as the as-written version.
- CartDao.AddOrUpdateCartItem: requires a positive quantity, which CartServlet.java:94 establishes.
- CartDao.UpdateCartQuantity: requires a positive quantity, which CartServlet.java:144 establishes.

## Findings

| source | as written | input that shows it | evidently intended | confidence | as-written member | corrected member |
|---|---|---|---|---|---|---|
| backend/src/main/java/com/mall/dao/ProductDAO.java:27 | merging a product into a live one of the same name adds the stocks in 32-bit `int` arithmetic | a live product with stock `2147483647`; create the same name with stock 1: the stored stock is `-2147483648` | stock never goes negative; a sum beyond `int` is refused | not executed | ProductDao.CreateProductAsWrittenOverflows | ProductDao.CreateProductPreservesValid |
| backend/src/main/java/com/mall/servlet/OrderServlet.java:147 | `createOrder` receives every requested cart id, and OrderDAO.java:96-111 deletes each by id with no customer filter | customer 1 lists cart ids 1 (own) and 2 (customer 2's): the order is built from row 1 but row 2 is deleted too | only the rows the order was built from are consumed | not executed | OrderServlet.PostAsWrittenConsumesForeignRow | OrderServlet.PostKeepsForeignRow |
| backend/src/main/java/com/mall/filter/AuthFilter.java:84-85 | the filter copies the subject and username into request attributes but never the `isAdmin` claim, which JWTUtil.java:38 puts in the token | any request with a verified token whose `isAdmin` claim is true: `PUT /api/order/{id}/status` answers 403 | administrators reach the admin branches of OrderServlet (lines 204, 229, 287, 336) | not executed | AuthFilter.AdminEndpointsUnreachable | AuthFilter.AdminClaimHonoured |

=== FILE: auth_filter.dfy ===
/** The authentication gate in front of every servlet (filter/AuthFilter.java): CORS preflight,
    the login/register whitelist, the `Bearer` header, and token verification. Verification
    itself (an HMAC library) is a parameter: a function from the token to what the library
    reports. */
module AuthFilter {
  import opened Wrappers
  import opened JavaLang
  import opened Model
  import opened Http
  import OrderServlet

  datatype Request = Request(verb: string, servletPath: string, authorization: Option<string>)

  /** What `JWTUtil.verifyToken` does with a token: returns the decoded token with its subject
      and its `username` and `isAdmin` claims (each possibly null), returns `null` (it catches
      `JWTVerificationException` itself), or throws some other exception. */
  datatype Verdict =
    | Decoded(subject: Option<string>, username: Option<string>, isAdmin: Option<bool>)
    | Invalid
    | Crashed

  /** How the rest of the chain ends when the filter runs it. */
  datatype ChainEnd = Returns | ThrowsVerification | ThrowsOther

  /** What the filter does with a request. */
  datatype Outcome =
    | Preflight                                       // 200 with the CORS headers; chain not run
    | Forwarded(attrs: Attrs)                         // chain ran and returned, with these attributes
    | Refused(status: int, message: string, chainRan: bool)
    | Escaped                                         // whitelisted chain threw; the exception leaves the filter

  const BearerPrefix: string := "Bearer "
  const FailurePrefix: string := "JWT_FAILURE_"
  const UnknownError: string := "未知错误"
  const NoTokenText: string := "请求被拒绝，请携带有效的认证Token。"
  const BadTokenText: string := "Token无效或已过期，请重新登录。"
  const InternalText: string := "服务器内部错误，请稍后重试。"

  /** `sendErrorResponse`'s message: the failure prefix, then the given text or, for `null`,
      the fallback. */
  function ErrorMessage(m: Option<string>): (r: string)
    ensures FailurePrefix <= r
    ensures r[|FailurePrefix|..] == m.GetOr(UnknownError)
  {
    FailurePrefix + m.GetOr(UnknownError)
  }

  /** Different texts give different messages: the prefix hides nothing. */
  lemma ErrorMessageInjective(a: Option<string>, b: Option<string>)
    requires ErrorMessage(a) == ErrorMessage(b)
    ensures a.GetOr(UnknownError) == b.GetOr(UnknownError)
  {
    assert ErrorMessage(a)[|FailurePrefix|..] == ErrorMessage(b)[|FailurePrefix|..];
  }

  predicate IsPreflight(req: Request) {
    EqualsIgnoreCase(req.verb, "OPTIONS")
  }

  predicate IsOpenPath(req: Request) {
    EndsWith(req.servletPath, "/login") || EndsWith(req.servletPath, "/register")
  }

  predicate HasBearer(req: Request) {
    req.authorization.Some? && StartsWith(req.authorization.value, BearerPrefix)
  }

  /** `doFilter`, with `copyAdmin` choosing whether the token's `isAdmin` claim becomes the
      request attribute. */
  function Run(req: Request, verify: string -> Verdict, chain: ChainEnd, copyAdmin: bool): Outcome {
    if IsPreflight(req) then Preflight
    else if IsOpenPath(req) then
      (if chain == Returns then Forwarded(Attrs(None, None, None)) else Escaped)
    else if !HasBearer(req) then Refused(Unauthorized, ErrorMessage(Some(NoTokenText)), false)
    else
      var token := req.authorization.value[|BearerPrefix|..];
      match verify(token)
      case Invalid => Refused(Unauthorized, ErrorMessage(Some(BadTokenText)), false)
      case Crashed => Refused(ServerError, ErrorMessage(Some(InternalText)), false)
      case Decoded(subject, username, isAdmin) =>
        match chain
        case Returns => Forwarded(Attrs(subject, username, if copyAdmin then isAdmin else None))
        case ThrowsVerification => Refused(Unauthorized, ErrorMessage(Some(BadTokenText)), true)
        case ThrowsOther => Refused(ServerError, ErrorMessage(Some(InternalText)), true)
  }

  /** `doFilter` as written: the token's subject and username become request attributes, but
      its `isAdmin` claim never does. */
  function FilterAsWritten(req: Request, verify: string -> Verdict, chain: ChainEnd): (r: Outcome)
    ensures r.Forwarded? ==> r.attrs.isAdmin == None
    ensures r.Refused? ==> r.status in {Unauthorized, ServerError} && FailurePrefix <= r.message
  {
    Run(req, verify, chain, false)
  }

  /** `doFilter` passing the token's `isAdmin` claim on, as the servlets expect. */
  function Filter(req: Request, verify: string -> Verdict, chain: ChainEnd): (r: Outcome)
    ensures r.Refused? ==> r.status in {Unauthorized, ServerError} && FailurePrefix <= r.message
    ensures r.Forwarded? && !IsOpenPath(req) ==>
              && HasBearer(req)
              && var v := verify(req.authorization.value[7..]);
                 v.Decoded? && r.attrs == Attrs(v.subject, v.username, v.isAdmin)
  {
    Run(req, verify, chain, true)
  }

  /** A preflight request, in any letter case, is answered at once. */
  lemma PreflightAnswered(req: Request, verify: string -> Verdict, chain: ChainEnd)
    requires ToLower(req.verb) == "options"
    ensures FilterAsWritten(req, verify, chain) == Preflight
    ensures Filter(req, verify, chain) == Preflight
  {
  }

  /** Login and registration go through without any token, and with no attributes. */
  lemma OpenPathsNeedNoToken(req: Request, verify: string -> Verdict, chain: ChainEnd)
    requires !IsPreflight(req) && IsOpenPath(req)
    ensures FilterAsWritten(req, verify, chain) == (if chain == Returns then Forwarded(Attrs(None, None, None)) else Escaped)
  {
  }

  /** Any other request without a `Bearer ` header is refused with 401 before the chain. */
  lemma BearerRequired(req: Request, verify: string -> Verdict, chain: ChainEnd)
    requires !IsPreflight(req) && !IsOpenPath(req)
    requires req.authorization.None? || !(BearerPrefix <= req.authorization.value)
    ensures FilterAsWritten(req, verify, chain) == Refused(Unauthorized, FailurePrefix + NoTokenText, false)
  {
  }

  /** The token handed to the verifier is the header after its seven-character prefix: two
      verifiers that agree on that string give the same outcome. */
  lemma TokenIsHeaderTail(req: Request, v1: string -> Verdict, v2: string -> Verdict, chain: ChainEnd)
    requires req.authorization.Some? && |req.authorization.value| >= 7
    requires v1(req.authorization.value[7..]) == v2(req.authorization.value[7..])
    ensures FilterAsWritten(req, v1, chain) == FilterAsWritten(req, v2, chain)
    ensures Filter(req, v1, chain) == Filter(req, v2, chain)
  {
  }

  /** A token the verifier rejects gets 401, and a verifier crash 500, both before the chain;
      an exception from the chain after a good token is mapped the same way. */
  lemma VerificationFailures(req: Request, verify: string -> Verdict, chain: ChainEnd)
    requires !IsPreflight(req) && !IsOpenPath(req) && HasBearer(req)
    ensures var v := verify(req.authorization.value[7..]);
            var r := FilterAsWritten(req, verify, chain);
            && (v == Invalid ==> r == Refused(Unauthorized, FailurePrefix + BadTokenText, false))
            && (v == Crashed ==> r == Refused(ServerError, FailurePrefix + InternalText, false))
            && (v.Decoded? && chain == ThrowsVerification ==> r == Refused(Unauthorized, FailurePrefix + BadTokenText, true))
            && (v.Decoded? && chain == ThrowsOther ==> r == Refused(ServerError, FailurePrefix + InternalText, true))
            && (v.Decoded? && chain == Returns ==> r == Forwarded(Attrs(v.subject, v.username, None)))
  {
  }

  /** Behind the filter as written, no request is an administrator's: every status update is
      refused with 401 or 403 and leaves the store alone, and the list of all orders is never
      served. */
  lemma AdminEndpointsUnreachable(s: Store, req: Request, verify: string -> Verdict, chain: ChainEnd,
                                  path: Option<string>, body: Option<OrderServlet.StatusBody>)
    requires FilterAsWritten(req, verify, chain).Forwarded?
    ensures var a := FilterAsWritten(req, verify, chain).attrs;
            var put := OrderServlet.HandlePut(s, a, path, body);
            && put.value.status in {Unauthorized, Forbidden}
            && put.store == s
            && OrderServlet.HandleGet(s, a, Some("/all")).status != Ok
  {
  }

  /** Behind the fixed filter, a verified token carrying `isAdmin: true` reaches the status
      update itself. */
  lemma AdminClaimHonoured(s: Store, req: Request, verify: string -> Verdict, subject: string,
                           username: Option<string>, path: Option<string>, body: Option<OrderServlet.StatusBody>)
    requires !IsPreflight(req) && !IsOpenPath(req) && HasBearer(req)
    requires verify(req.authorization.value[7..]) == Decoded(Some(subject), username, Some(true))
    ensures var r := Filter(req, verify, Returns);
            && r.Forwarded? && IsAdmin(r.attrs)
            && OrderServlet.HandlePut(s, r.attrs, path, body).value.status != Forbidden
  {
  }
}

=== FILE: cart_dao.dfy ===
/** The shopping cart (dao/CartDAO.java): one row per customer and product, added to under a
    stock check, updated and removed by cart id. */
module CartDao {
  import opened Wrappers
  import opened JavaLang
  import opened Model

  /** `getProductStockQuantity`: the stock of a live product; 0 for a missing or soft-deleted one. */
  function StockOf(s: Store, productId: int): (r: Int32)
    ensures productId in s.products && !s.products[productId].deleted ==> r == s.products[productId].stock
    ensures !(productId in s.products && !s.products[productId].deleted) ==> r == 0
  {
    if productId in s.products && !s.products[productId].deleted then s.products[productId].stock else 0
  }

  predicate Holds(row: CartRow, customerId: int, productId: int) {
    row.customerId == customerId && row.productId == productId
  }

  /** The first of `keys` whose cart row belongs to this customer and product. */
  function FirstRowFor(cart: map<int, CartRow>, keys: seq<int>, customerId: int, productId: int): (r: Option<int>)
    ensures r.Some? ==> r.value in cart && r.value in keys && Holds(cart[r.value], customerId, productId)
    ensures r.None? ==> forall k :: k in keys && k in cart ==> !Holds(cart[k], customerId, productId)
  {
    if |keys| == 0 then None
    else if keys[0] in cart && Holds(cart[keys[0]], customerId, productId) then Some(keys[0])
    else FirstRowFor(cart, keys[1..], customerId, productId)
  }

  /** The cart row of this customer for this product, if there is one. */
  function RowFor(s: Store, customerId: int, productId: int): (r: Option<int>)
    ensures r.Some? ==> r.value in s.cart && Holds(s.cart[r.value], customerId, productId)
    ensures Valid(s) && r.None? ==> forall k :: k in s.cart ==> !Holds(s.cart[k], customerId, productId)
  {
    FirstRowFor(s.cart, KeysBetween(s.cart.Keys, 1, s.nextCartId), customerId, productId)
  }

  /** `getCartItemQuantity`: the quantity already in the cart, 0 when there is no row. */
  function QuantityInCart(s: Store, customerId: int, productId: int): Int32 {
    match RowFor(s, customerId, productId)
    case Some(k) => s.cart[k].quantity
    case None => 0
  }

  /** `INSERT INTO cart ... ON DUPLICATE KEY UPDATE quantity = quantity + VALUES(quantity)`.
      The database adds exactly; a sum outside the `int` column is an error, so nothing changes. */
  function Upsert(s: Store, customerId: int, productId: int, quantity: Int32): Step<bool> {
    match RowFor(s, customerId, productId)
    case Some(k) =>
      var sum := s.cart[k].quantity + quantity;
      if sum < IntMin || sum > IntMax then Step(false, s)
      else Step(true, s.(cart := s.cart[k := s.cart[k].(quantity := sum)]))
    case None =>
      var id := s.nextCartId;
      Step(true, s.(cart := s.cart[id := CartRow(id, customerId, productId, quantity)], nextCartId := id + 1))
  }

  /** `addOrUpdateCartItem`. The guard adds in Java `int` arithmetic; the caller (CartServlet)
      has rejected a quantity that is not positive. */
  function AddOrUpdateCartItem(s: Store, customerId: int, productId: int, quantity: Int32): (r: Step<bool>)
    requires quantity > 0
    ensures !r.value ==> r.store == s
    ensures r.value <==> 0 < StockOf(s, productId) && QuantityInCart(s, customerId, productId) + quantity <= StockOf(s, productId)
    ensures r.value ==> RowFor(s, customerId, productId).Some? ==>
              var k := RowFor(s, customerId, productId).value;
              && r.store.cart == s.cart[k := s.cart[k].(quantity := s.cart[k].quantity + quantity)]
              && r.store.nextCartId == s.nextCartId
    ensures r.value ==> RowFor(s, customerId, productId).None? ==>
              && r.store.cart == s.cart[s.nextCartId := CartRow(s.nextCartId, customerId, productId, quantity)]
              && r.store.nextCartId == s.nextCartId + 1
    ensures r.store == s.(cart := r.store.cart, nextCartId := r.store.nextCartId)
  {
    var stock := StockOf(s, productId);
    if stock <= 0 then Step(false, s)
    else
      var current := QuantityInCart(s, customerId, productId);
      if AddInt(current, quantity) > stock then Step(false, s)
      else Upsert(s, customerId, productId, quantity)
  }

  /** After a successful add, the one row for this customer and product holds no more than the
      stock seen by the check, and no second row for the pair exists. */
  lemma AddKeepsWithinStock(s: Store, customerId: int, productId: int, quantity: Int32)
    requires Valid(s) && quantity > 0
    requires AddOrUpdateCartItem(s, customerId, productId, quantity).value
    ensures var t := AddOrUpdateCartItem(s, customerId, productId, quantity).store;
            && RowFor(t, customerId, productId).Some?
            && t.cart[RowFor(t, customerId, productId).value].quantity
               == QuantityInCart(s, customerId, productId) + quantity
            && t.cart[RowFor(t, customerId, productId).value].quantity <= StockOf(s, productId)
            && forall a, b :: (a in t.cart && b in t.cart && Holds(t.cart[a], customerId, productId)
                               && Holds(t.cart[b], customerId, productId)) ==> a == b
  {
    AddPreservesValid(s, customerId, productId, quantity);
    var t := AddOrUpdateCartItem(s, customerId, productId, quantity).store;
    match RowFor(s, customerId, productId)
    case Some(k) =>
      assert Holds(t.cart[k], customerId, productId);
    case None =>
      assert Holds(t.cart[s.nextCartId], customerId, productId);
  }

  lemma AddPreservesValid(s: Store, customerId: int, productId: int, quantity: Int32)
    requires Valid(s) && quantity > 0
    ensures Valid(AddOrUpdateCartItem(s, customerId, productId, quantity).store)
  {
    var t := AddOrUpdateCartItem(s, customerId, productId, quantity).store;
    if RowFor(s, customerId, productId).None? {
      assert s.nextCartId !in s.cart;
      forall a, b | a in t.cart && b in t.cart && t.cart[a].customerId == t.cart[b].customerId
                    && t.cart[a].productId == t.cart[b].productId
        ensures a == b
      {
      }
    }
  }

  /** The Java guard alone wraps: with one unit in the cart, adding `IntMax` units passes the
      `> stock` check as a negative sum. The column's range check is what refuses it. */
  lemma AddGuardWrapsButColumnRefuses()
    ensures var p := Product(1, "A", "", Some(1.0), 5, "", false);
            var s := Empty().(products := map[1 := p], cart := map[1 := CartRow(1, 7, 1, 1)],
                              nextProductId := 2, nextCartId := 2);
            && Valid(s)
            && AddInt(QuantityInCart(s, 7, 1), IntMax) <= StockOf(s, 1)
            && !AddOrUpdateCartItem(s, 7, 1, IntMax).value
  {
    var p := Product(1, "A", "", Some(1.0), 5, "", false);
    var s := Empty().(products := map[1 := p], cart := map[1 := CartRow(1, 7, 1, 1)],
                      nextProductId := 2, nextCartId := 2);
    assert KeysBetween(s.cart.Keys, 1, 2) == [1] by {
      assert 1 in KeysBetween(s.cart.Keys, 1, 2);
    }
    assert RowFor(s, 7, 1) == Some(1);
  }

  // ---------------------------------------------------------------------------------------
  // Read

  /** One row of `getCartItemsByCustomerId`: the cart row joined with its product's current
      name, price, image and stock. */
  datatype CartEntry = CartEntry(
    cartId: int,
    productId: int,
    quantity: Int32,
    name: string,
    price: Option<Money>,
    imageUrl: string,
    stock: Int32)

  /** The entry the cart row under key `k` and its product make. */
  function Join(k: int, row: CartRow, p: Product): CartEntry {
    CartEntry(k, row.productId, row.quantity, p.name, p.price, p.imageUrl, p.stock)
  }

  predicate Owned(s: Store, customerId: int, k: int) {
    k in s.cart && s.cart[k].customerId == customerId && s.cart[k].productId in s.products
  }

  /** The customer's rows among `keys`, joined with their products, in the order of `keys`. */
  function EntriesOf(s: Store, keys: seq<int>, customerId: int): (r: seq<CartEntry>)
    ensures forall i :: 0 <= i < |r| ==>
              && r[i].cartId in keys && Owned(s, customerId, r[i].cartId)
              && r[i] == Join(r[i].cartId, s.cart[r[i].cartId], s.products[s.cart[r[i].cartId].productId])
    ensures Increasing(keys) ==> forall i, j :: 0 <= i < j < |r| ==> r[i].cartId < r[j].cartId
  {
    if |keys| == 0 then []
    else
      var k := keys[0];
      var rest := EntriesOf(s, keys[1..], customerId);
      assert forall k' :: k' in keys[1..] ==> k' in keys;
      if Owned(s, customerId, k) then [Join(k, s.cart[k], s.products[s.cart[k].productId])] + rest
      else rest
  }

  /** No row of the customer among `keys` is missed. */
  lemma {:induction false} EntriesOfComplete(s: Store, keys: seq<int>, customerId: int, k: int)
    requires k in keys && Owned(s, customerId, k)
    ensures exists i :: 0 <= i < |EntriesOf(s, keys, customerId)| && EntriesOf(s, keys, customerId)[i].cartId == k
  {
    var r := EntriesOf(s, keys, customerId);
    if k == keys[0] {
      assert r[0].cartId == k;
    } else {
      InTail(keys, k);
      EntriesOfComplete(s, keys[1..], customerId, k);
      var rest := EntriesOf(s, keys[1..], customerId);
      var i :| 0 <= i < |rest| && rest[i].cartId == k;
      if Owned(s, customerId, keys[0]) {
        assert r[i + 1].cartId == k;
      } else {
        assert r[i].cartId == k;
      }
    }
  }

  lemma InTail(keys: seq<int>, k: int)
    requires k in keys && k != keys[0]
    ensures k in keys[1..]
  {
    var j :| 0 <= j < |keys| && keys[j] == k;
    assert keys[1..][j - 1] == k;
  }

  /** `getCartItemsByCustomerId`: this customer's cart rows, in cart order, each with its
      product's current data. The join is on the product row alone, so a soft-deleted
      product's rows still appear; a row whose product is gone does not. */
  function GetCartItems(s: Store, customerId: int): (r: seq<CartEntry>)
    ensures forall i :: 0 <= i < |r| ==>
              && Owned(s, customerId, r[i].cartId)
              && r[i] == Join(r[i].cartId, s.cart[r[i].cartId], s.products[s.cart[r[i].cartId].productId])
    ensures Valid(s) ==> forall k :: Owned(s, customerId, k) ==> exists i :: 0 <= i < |r| && r[i].cartId == k
    ensures forall i, j :: 0 <= i < j < |r| ==> r[i].cartId < r[j].cartId
  {
    var keys := KeysBetween(s.cart.Keys, 1, s.nextCartId);
    assert Valid(s) ==> forall k :: Owned(s, customerId, k) ==>
                          exists i :: 0 <= i < |EntriesOf(s, keys, customerId)| && EntriesOf(s, keys, customerId)[i].cartId == k by {
      if Valid(s) {
        forall k | Owned(s, customerId, k)
          ensures exists i :: 0 <= i < |EntriesOf(s, keys, customerId)| && EntriesOf(s, keys, customerId)[i].cartId == k
        {
          EntriesOfComplete(s, keys, customerId, k);
        }
      }
    }
    EntriesOf(s, keys, customerId)
  }

  // ---------------------------------------------------------------------------------------
  // Update and remove by cart id

  /** `updateCartQuantity`: sets the quantity of the row with this id, whoever owns it and
      whatever the stock. The caller (CartServlet) has rejected a quantity that is not positive. */
  function UpdateCartQuantity(s: Store, cartId: int, quantity: Int32): (r: Step<bool>)
    requires quantity > 0
    ensures r.value <==> cartId in s.cart
    ensures r.value ==> r.store.cart == s.cart[cartId := s.cart[cartId].(quantity := quantity)]
    ensures !r.value ==> r.store == s
    ensures r.store == s.(cart := r.store.cart)
  {
    if cartId in s.cart then Step(true, s.(cart := s.cart[cartId := s.cart[cartId].(quantity := quantity)]))
    else Step(false, s)
  }

  /** `removeCartItem`: deletes the row with this id and no other. */
  function RemoveCartItem(s: Store, cartId: int): (r: Step<bool>)
    ensures r.value <==> cartId in s.cart
    ensures r.store.cart == s.cart - {cartId}
    ensures r.store == s.(cart := r.store.cart)
  {
    Step(cartId in s.cart, s.(cart := s.cart - {cartId}))
  }

  /** Quantities set directly are not held to the stock: an update may put more in the cart
      than the product has. */
  lemma UpdateIgnoresStock(s: Store, cartId: int, quantity: Int32)
    requires cartId in s.cart && quantity > 0
    requires s.cart[cartId].productId in s.products
    requires quantity > s.products[s.cart[cartId].productId].stock
    ensures var t := UpdateCartQuantity(s, cartId, quantity);
            t.value && t.store.cart[cartId].quantity > t.store.products[t.store.cart[cartId].productId].stock
  {
  }

  lemma UpdateAndRemovePreserveValid(s: Store, cartId: int, quantity: Int32)
    requires Valid(s) && quantity > 0
    ensures Valid(UpdateCartQuantity(s, cartId, quantity).store)
    ensures Valid(RemoveCartItem(s, cartId).store)
  {
  }
}

=== FILE: http.dfy ===
/** What the servlets share: the status codes they answer with, the request attributes the
    authentication filter sets, and the shape of a JSON field after Gson has parsed the body
    into a map. */
module Http {
  import opened Wrappers

  const Ok: int := 200
  const Created: int := 201
  const BadRequest: int := 400
  const Unauthorized: int := 401
  const Forbidden: int := 403
  const NotFound: int := 404
  const ServerError: int := 500

  /** The request attributes a servlet reads. `isAdmin` is a `Boolean`, so it may be absent. */
  datatype Attrs = Attrs(userId: Option<string>, username: Option<string>, isAdmin: Option<bool>)

  /** `isAdmin != null && isAdmin`: only an explicit `true` grants administrator rights. */
  predicate IsAdmin(a: Attrs) {
    a.isAdmin == Some(true)
  }

  /** A field of the parsed JSON body read with a `(String)` cast: absent or JSON `null`, a
      string, or some other value, whose cast throws `ClassCastException`. */
  datatype Field = Missing | Text(text: string) | NotText
}

=== FILE: java_lang.dfy ===
/** The parts of the Java platform whose exact behaviour decides an outcome in the modelled
    code: 32-bit `int` addition, `Integer.parseInt`, `String.valueOf(int)`, `String.split`
    with a one-character separator, and the string predicates the filter and the servlets use. */
module JavaLang {
  import opened Wrappers

  const IntMin: int := -0x8000_0000
  const IntMax: int := 0x7FFF_FFFF
  const Modulus: int := 0x1_0000_0000

  /** Java's `int`. */
  type Int32 = x: int | IntMin <= x <= IntMax

  /** Java's `a + b` on two `int`s: two's-complement wrap-around. */
  function AddInt(a: Int32, b: Int32): (r: Int32)
    ensures (a + b - r) % Modulus == 0
    ensures IntMin <= a + b <= IntMax ==> r == a + b
  {
    var s := a + b;
    if s > IntMax then s - Modulus else if s < IntMin then s + Modulus else s
  }

  /** Only one 32-bit value is congruent to the exact sum, so `AddInt` is Java's `+`. */
  lemma AddIntUnique(a: Int32, b: Int32, r: Int32)
    requires (a + b - r) % Modulus == 0
    ensures r == AddInt(a, b)
  {
    var w := AddInt(a, b);
    var d := r - w;
    assert (a + b - w) % Modulus == 0;
    assert -Modulus < d < Modulus;
    assert d % Modulus == 0 by {
      assert (a + b - w) - (a + b - r) == d;
    }
  }

  // ---------------------------------------------------------------------------------------
  // Decimal digits: Integer.parseInt and String.valueOf(int)

  predicate IsDigit(c: char) {
    '0' <= c <= '9'
  }

  predicate AllDigits(s: string) {
    forall i :: 0 <= i < |s| ==> IsDigit(s[i])
  }

  function DigitValue(c: char): nat
    requires IsDigit(c)
  {
    (c as int) - ('0' as int)
  }

  function DigitChar(d: nat): (c: char)
    requires d < 10
    ensures IsDigit(c) && DigitValue(c) == d
  {
    (('0' as int) + d) as char
  }

  /** The value of a run of decimal digits, most significant first (leading zeros allowed). */
  function DigitsValue(s: string): nat
    requires AllDigits(s)
  {
    if |s| == 0 then 0 else 10 * DigitsValue(s[..|s| - 1]) + DigitValue(s[|s| - 1])
  }

  /** `Integer.parseInt(s)`: an optional `-` or `+`, then one or more ASCII decimal digits,
      with a value that fits in an `int`. Everything else throws `NumberFormatException`, which is
      `None` here. */
  function ParseInt(s: string): (r: Option<Int32>)
    ensures r.Some? ==> |s| > 0 && (s[0] == '-' || s[0] == '+' || IsDigit(s[0]))
    ensures r.Some? ==> forall i :: 0 < i < |s| ==> IsDigit(s[i])
    ensures r.Some? && IsDigit(s[0]) ==> r.value == DigitsValue(s)
    ensures r.Some? && s[0] == '-' ==> |s| > 1 && AllDigits(s[1..]) && r.value == -(DigitsValue(s[1..]) as int)
    ensures r.Some? && s[0] == '+' ==> |s| > 1 && AllDigits(s[1..]) && r.value == DigitsValue(s[1..])
  {
    if |s| == 0 then None
    else
      var digits := if s[0] == '-' || s[0] == '+' then s[1..] else s;
      if |digits| == 0 || !AllDigits(digits) then None
      else
        var v: int := if s[0] == '-' then -(DigitsValue(digits) as int) else DigitsValue(digits);
        if IntMin <= v <= IntMax then Some(v) else None
  }

  /** The other direction: a sign-and-digits string is accepted exactly when its value fits
      in an `int`. */
  lemma ParseIntAccepts(s: string)
    ensures |s| > 0 && AllDigits(s) ==> (ParseInt(s).Some? <==> DigitsValue(s) <= IntMax)
    ensures |s| > 1 && s[0] == '-' && AllDigits(s[1..]) ==> (ParseInt(s).Some? <==> DigitsValue(s[1..]) <= -IntMin)
    ensures |s| > 1 && s[0] == '+' && AllDigits(s[1..]) ==> (ParseInt(s).Some? <==> DigitsValue(s[1..]) <= IntMax)
  {
  }

  /** The decimal digits of `n`, without leading zeros. */
  function ShowNat(n: nat): (s: string)
    ensures |s| >= 1 && AllDigits(s)
  {
    if n < 10 then [DigitChar(n)] else ShowNat(n / 10) + [DigitChar(n % 10)]
  }

  /** `String.valueOf(n)` for an `int`. */
  function ShowInt(n: int): (s: string)
    ensures |s| >= 1
    ensures forall i :: 0 <= i < |s| ==> IsDigit(s[i]) || s[i] == '-'
  {
    if n < 0 then "-" + ShowNat(-n) else ShowNat(n)
  }

  lemma {:induction false} DigitsValueShowNat(n: nat)
    ensures DigitsValue(ShowNat(n)) == n
  {
    if n >= 10 {
      var s := ShowNat(n);
      assert s[..|s| - 1] == ShowNat(n / 10);
      DigitsValueShowNat(n / 10);
    }
  }

  /** `Integer.parseInt(String.valueOf(n)) == n` for every `int`. */
  lemma ParseShowRoundTrip(n: Int32)
    ensures ParseInt(ShowInt(n)) == Some(n)
  {
    if n < 0 {
      var m: nat := -(n as int);
      DigitsValueShowNat(m);
      assert ShowInt(n)[1..] == ShowNat(m);
    } else {
      DigitsValueShowNat(n);
    }
  }

  // ---------------------------------------------------------------------------------------
  // String.split with a one-character separator

  function IndexOf(s: string, c: char): (i: nat)
    requires c in s
    ensures i < |s| && s[i] == c && c !in s[..i]
  {
    if s[0] == c then 0 else 1 + IndexOf(s[1..], c)
  }

  /** The pieces of `s` between occurrences of `sep`, empty pieces included. */
  function Pieces(s: string, sep: char): (r: seq<string>)
    ensures |r| >= 1
    ensures forall i :: 0 <= i < |r| ==> sep !in r[i]
    decreases |s|
  {
    if sep !in s then [s]
    else
      var i := IndexOf(s, sep);
      [s[..i]] + Pieces(s[i + 1..], sep)
  }

  function Join(ps: seq<string>, sep: char): string
    requires |ps| >= 1
  {
    if |ps| == 1 then ps[0] else ps[0] + [sep] + Join(ps[1..], sep)
  }

  /** Splitting loses nothing: joining the pieces back with the separator gives `s`. */
  lemma {:induction false} JoinPieces(s: string, sep: char)
    ensures Join(Pieces(s, sep), sep) == s
    decreases |s|
  {
    if sep in s {
      var i := IndexOf(s, sep);
      var rest := s[i + 1..];
      var ps := Pieces(rest, sep);
      JoinPieces(rest, sep);
      assert Pieces(s, sep) == [s[..i]] + ps;
      JoinCons(s[..i], ps, sep);
      assert s == s[..i] + [sep] + rest;
    }
  }

  /** Joining a piece in front of a non-empty list puts one separator between them. */
  lemma JoinCons(p: string, ps: seq<string>, sep: char)
    requires |ps| >= 1
    ensures Join([p] + ps, sep) == p + [sep] + Join(ps, sep)
  {
    assert ([p] + ps)[1..] == ps;
  }

  /** Java's `split` with limit 0 removes trailing empty strings. */
  function DropTrailingEmpty(ps: seq<string>): (r: seq<string>)
    ensures r <= ps
    ensures |r| > 0 ==> r[|r| - 1] != ""
    ensures forall i :: |r| <= i < |ps| ==> ps[i] == ""
  {
    if |ps| == 0 then []
    else if ps[|ps| - 1] == "" then DropTrailingEmpty(ps[..|ps| - 1])
    else ps
  }

  /** `s.split(sep)` for a one-character, non-metacharacter separator: when `sep` does not
      occur the result is `[s]` (so `"".split` is `[""]`); otherwise the pieces with trailing
      empty pieces removed (so `"/".split("/")` is empty). */
  function Split(s: string, sep: char): (r: seq<string>)
    ensures sep !in s ==> r == [s]
    ensures sep in s ==> r <= Pieces(s, sep)
    ensures sep in s ==> |r| > 0 ==> r[|r| - 1] != ""
    ensures sep in s ==> forall i :: |r| <= i < |Pieces(s, sep)| ==> Pieces(s, sep)[i] == ""
    ensures forall i :: 0 <= i < |r| ==> sep !in r[i]
  {
    if sep !in s then [s] else DropTrailingEmpty(Pieces(s, sep))
  }

  /** A path of one segment, with any number of trailing separators, splits into an empty
      first piece and that segment. */
  lemma {:induction false} SplitOneSegment(seg: string, sep: char, trailing: nat)
    requires seg != [] && sep !in seg
    ensures Split([sep] + seg + Repeat(sep, trailing), sep) == ["", seg]
  {
    var s := [sep] + seg + Repeat(sep, trailing);
    assert s[0] == sep;
    assert IndexOf(s, sep) == 0;
    var rest := s[1..];
    assert rest == seg + Repeat(sep, trailing);
    PiecesOfSegmentThenSeparators(seg, sep, trailing);
    assert Pieces(s, sep) == [""] + Pieces(rest, sep);
    DropTrailingEmptyPieces(seg, trailing);
  }

  function Repeat(c: char, n: nat): (r: string)
    ensures |r| == n && forall i :: 0 <= i < n ==> r[i] == c
  {
    if n == 0 then "" else [c] + Repeat(c, n - 1)
  }

  function Empties(n: nat): (r: seq<string>)
    ensures |r| == n && forall i :: 0 <= i < n ==> r[i] == ""
  {
    if n == 0 then [] else [""] + Empties(n - 1)
  }

  lemma {:induction false} PiecesOfSeparators(sep: char, n: nat)
    ensures Pieces(Repeat(sep, n), sep) == [""] + Empties(n)
  {
    if n > 0 {
      var s := Repeat(sep, n);
      assert IndexOf(s, sep) == 0;
      assert s[1..] == Repeat(sep, n - 1);
      PiecesOfSeparators(sep, n - 1);
    }
  }

  lemma {:induction false} IndexOfFirst(a: string, c: char, b: string)
    requires c !in a
    ensures IndexOf(a + [c] + b, c) == |a|
  {
    if a != [] {
      assert (a + [c] + b)[1..] == a[1..] + [c] + b;
      IndexOfFirst(a[1..], c, b);
    }
  }

  lemma PiecesOfSegmentThenSeparators(seg: string, sep: char, n: nat)
    requires sep !in seg
    ensures Pieces(seg + Repeat(sep, n), sep) == [seg] + Empties(n)
  {
    var s := seg + Repeat(sep, n);
    if n == 0 {
      assert s == seg;
    } else {
      var tail := Repeat(sep, n - 1);
      assert s == seg + [sep] + tail;
      IndexOfFirst(seg, sep, tail);
      assert s[..|seg|] == seg;
      assert s[|seg| + 1..] == tail;
      PiecesOfSeparators(sep, n - 1);
    }
  }

  lemma DropTrailingEmptyPieces(seg: string, n: nat)
    requires seg != []
    ensures DropTrailingEmpty([""] + ([seg] + Empties(n))) == ["", seg]
    decreases n
  {
    if n > 0 {
      var ps := [""] + ([seg] + Empties(n));
      assert ps[..|ps| - 1] == [""] + ([seg] + Empties(n - 1));
      DropTrailingEmptyPieces(seg, n - 1);
    } else {
      assert [""] + ([seg] + Empties(0)) == ["", seg];
    }
  }

  // ---------------------------------------------------------------------------------------
  // Case folding and affixes

  /** `Character.toLowerCase` restricted to ASCII letters. */
  function LowerChar(c: char): char {
    if 'A' <= c <= 'Z' then ((c as int) + 32) as char else c
  }

  /** `String.toLowerCase` restricted to ASCII letters. */
  function ToLower(s: string): (r: string)
    ensures |r| == |s| && forall i :: 0 <= i < |s| ==> r[i] == LowerChar(s[i])
  {
    seq(|s|, i requires 0 <= i < |s| => LowerChar(s[i]))
  }

  /** Lower-casing a lower-cased string changes nothing. */
  lemma ToLowerIdempotent(s: string)
    ensures ToLower(ToLower(s)) == ToLower(s)
  {
  }

  /** `a.equalsIgnoreCase(b)` restricted to ASCII letters. */
  predicate EqualsIgnoreCase(a: string, b: string) {
    ToLower(a) == ToLower(b)
  }

  predicate StartsWith(s: string, prefix: string) {
    prefix <= s
  }

  predicate EndsWith(s: string, suffix: string) {
    |suffix| <= |s| && s[|s| - |suffix|..] == suffix
  }
}

=== FILE: model.dfy ===
/** The persistent state of the shop: one immutable record holding every table the modelled
    code touches, keyed by primary key, plus the auto-increment counters that hand out new
    keys. A transaction is a function from one `Store` to the next; a rolled-back transaction
    returns the store it was given. */
module Model {
  import opened Wrappers
  import opened JavaLang

  /** `BigDecimal` amounts. Dafny's `real` is exact, like the decimal arithmetic of the source. */
  type Money = real

  /** A row of `product` (model/Product.java). `price` is `None` when the column is NULL, which
      an update with a missing price produces. Timestamps are not modelled. */
  datatype Product = Product(
    id: int,
    name: string,
    description: string,
    price: Option<Money>,
    stock: Int32,
    imageUrl: string,
    deleted: bool)

  /** A row of `cart` (model/Cart.java). */
  datatype CartRow = CartRow(id: int, customerId: int, productId: int, quantity: Int32)

  /** A row of `order_master` (model/OrderMaster.java). `order_date` is not modelled. */
  datatype OrderHeader = OrderHeader(
    id: int,
    customerId: int,
    total: Money,
    address: string,
    status: string)

  /** A row of `order_item` (model/OrderItem.java): the product's name and price as they
      were when the order was placed. */
  datatype OrderItem = OrderItem(
    id: int,
    orderId: int,
    productId: int,
    productName: string,
    price: Money,
    quantity: int)

  /** An auto-increment counter: the next key a table hands out, always positive. */
  type Counter = n: int | n >= 1 witness 1

  /** The database. `customers` maps each customer id to its (nullable) username; it is read
      only by the order read paths, which join on it. */
  datatype Store = Store(
    products: map<int, Product>,
    cart: map<int, CartRow>,
    orders: map<int, OrderHeader>,
    items: map<int, OrderItem>,
    customers: map<int, Option<string>>,
    nextProductId: Counter,
    nextCartId: Counter,
    nextOrderId: Counter,
    nextItemId: Counter)

  /** What a DAO call returns, together with the store after it. */
  datatype Step<T> = Step(value: T, store: Store)

  /** The status every new order starts with. */
  const Pending: string := "PENDING"

  // ---------------------------------------------------------------------------------------
  // Schema invariants

  /** Every key is positive and below the table's auto-increment counter. */
  predicate KeysBelow<T>(m: map<int, T>, next: int) {
    forall k :: k in m ==> 0 < k < next
  }

  /** Stock never goes negative. */
  predicate ProductsValid(ps: map<int, Product>) {
    forall k :: k in ps ==> ps[k].id == k && 0 <= ps[k].stock
  }

  /** Cart quantities are positive `int`s, and the unique key on (customer_id, product_id)
      allows one row per customer and product. */
  predicate CartValid(cart: map<int, CartRow>) {
    && (forall k :: k in cart ==> cart[k].id == k && 0 < cart[k].quantity)
    && (forall a, b ::
          (a in cart && b in cart && cart[a].customerId == cart[b].customerId
           && cart[a].productId == cart[b].productId) ==> a == b)
  }

  /** Every order item belongs to an existing order header. */
  predicate OrdersValid(orders: map<int, OrderHeader>, items: map<int, OrderItem>) {
    && (forall k :: k in orders ==> orders[k].id == k)
    && (forall k :: k in items ==> items[k].id == k && items[k].orderId in orders)
  }

  predicate Valid(s: Store) {
    && KeysBelow(s.products, s.nextProductId)
    && KeysBelow(s.cart, s.nextCartId)
    && KeysBelow(s.orders, s.nextOrderId)
    && KeysBelow(s.items, s.nextItemId)
    && ProductsValid(s.products)
    && CartValid(s.cart)
    && OrdersValid(s.orders, s.items)
  }

  /** Replacing one product by a row under the same key with a stock that is not negative
      keeps the product table valid. */
  lemma ProductsValidUpdate(ps: map<int, Product>, id: int, p: Product)
    requires ProductsValid(ps) && p.id == id && 0 <= p.stock
    ensures ProductsValid(ps[id := p])
  {
  }

  /** Removing cart rows keeps the cart valid. */
  lemma CartValidShrinks(c: map<int, CartRow>, d: map<int, CartRow>)
    requires CartValid(c)
    requires forall k :: k in d ==> k in c && d[k] == c[k]
    ensures CartValid(d)
  {
  }

  /** The store with no rows and all counters at 1. */
  function Empty(): (s: Store)
    ensures Valid(s)
  {
    Store(map[], map[], map[], map[], map[], 1, 1, 1, 1)
  }

  // ---------------------------------------------------------------------------------------
  // Primary-key order, used for the order in which a query returns rows

  /** The elements of a list of ids. */
  function ToSet(xs: seq<int>): (r: set<int>)
    ensures forall x :: x in r <==> x in xs
  {
    set x | x in xs
  }

  /** No id occurs twice. */
  predicate Distinct(xs: seq<int>) {
    forall i, j :: 0 <= i < j < |xs| ==> xs[i] != xs[j]
  }

  predicate Increasing(xs: seq<int>) {
    forall i, j :: 0 <= i < j < |xs| ==> xs[i] < xs[j]
  }

  /** The keys of `ks` that lie in `[lo, hi)`, in ascending order. A table's rows in primary-key
      order are `KeysBetween(table.Keys, 1, next)`. */
  function KeysBetween(ks: set<int>, lo: int, hi: int): (r: seq<int>)
    ensures Increasing(r)
    ensures forall k :: k in r <==> k in ks && lo <= k < hi
    decreases hi - lo
  {
    if lo >= hi then []
    else
      var rest := KeysBetween(ks, lo + 1, hi);
      assert forall i :: 0 <= i < |rest| ==> lo < rest[i] by {
        forall i | 0 <= i < |rest|
          ensures lo < rest[i]
        {
          assert rest[i] in rest;
        }
      }
      if lo in ks then [lo] + rest else rest
  }
}

=== FILE: order_dao.dfy ===
/** Orders (dao/OrderDAO.java): the checkout transaction, order deletion, status updates and
    the read paths. */
module OrderDao {
  import opened Wrappers
  import opened JavaLang
  import opened Model
  import ProductDao

  /** An order line as the servlet hands it over: an `OrderItem` that has no id or order yet,
      carrying the product's name and price at the time of ordering. */
  datatype Line = Line(productId: int, productName: string, price: Money, quantity: Int32)

  /** The `order_item` row a line becomes. */
  function ItemRow(id: int, orderId: int, l: Line): OrderItem {
    OrderItem(id, orderId, l.productId, l.productName, l.price, l.quantity)
  }

  // ---------------------------------------------------------------------------------------
  // The four statements of createOrder

  /** Step 2, the batched `INSERT INTO order_item`: one row per line, under consecutive keys
      starting at `next`. */
  function InsertItems(items: map<int, OrderItem>, next: int, orderId: int, lines: seq<Line>): (r: map<int, OrderItem>)
    ensures forall k :: k in r <==> k in items || next <= k < next + |lines|
    ensures forall i :: 0 <= i < |lines| ==> r[next + i] == ItemRow(next + i, orderId, lines[i])
    ensures forall k :: k in items && !(next <= k < next + |lines|) ==> r[k] == items[k]
    decreases |lines|
  {
    if |lines| == 0 then items
    else
      var r := InsertItems(items[next := ItemRow(next, orderId, lines[0])], next + 1, orderId, lines[1..]);
      assert forall i :: 1 <= i < |lines| ==> r[next + i] == ItemRow(next + i, orderId, lines[i]) by {
        forall i | 1 <= i < |lines|
          ensures r[next + i] == ItemRow(next + i, orderId, lines[i])
        {
          assert lines[1..][i - 1] == lines[i];
          assert (next + 1) + (i - 1) == next + i;
        }
      }
      r
  }

  /** Step 3, the batched `UPDATE product SET stock_quantity = stock_quantity - q WHERE id = p
      AND stock_quantity >= q`, one statement per line in line order: `None` as soon as one
      statement matches no row (unknown product or too little stock). The soft-delete flag is
      not consulted. A result outside the `int` column is a database error, also `None`. */
  function Reserve(products: map<int, Product>, lines: seq<Line>): (r: Option<map<int, Product>>)
    ensures r.Some? ==> r.value.Keys == products.Keys
    ensures r.Some? ==> forall k :: k in products ==> r.value[k] == products[k].(stock := r.value[k].stock)
    ensures r.Some? && (forall k :: k in products ==> products[k].stock >= 0) ==>
              forall k :: k in r.value ==> r.value[k].stock >= 0
    decreases |lines|
  {
    if |lines| == 0 then Some(products)
    else
      var l := lines[0];
      if l.productId in products && products[l.productId].stock >= l.quantity
         && products[l.productId].stock - l.quantity <= IntMax
      then
        var p := products[l.productId];
        Reserve(products[l.productId := p.(stock := p.stock - l.quantity)], lines[1..])
      else None
  }

  /** The units of `productId` the lines ask for. */
  function Demand(lines: seq<Line>, productId: int): int {
    if |lines| == 0 then 0
    else (if lines[0].productId == productId then lines[0].quantity else 0) + Demand(lines[1..], productId)
  }

  predicate NonNegative(lines: seq<Line>) {
    forall i :: 0 <= i < |lines| ==> lines[i].quantity >= 0
  }

  lemma {:induction false} DemandNonNegative(lines: seq<Line>, productId: int)
    requires NonNegative(lines)
    ensures Demand(lines, productId) >= 0
  {
    if |lines| > 0 {
      DemandNonNegative(lines[1..], productId);
    }
  }

  /** Every product the lines name exists and has stock for everything asked of it. */
  predicate Covered(products: map<int, Product>, lines: seq<Line>) {
    forall i :: 0 <= i < |lines| ==>
      lines[i].productId in products && Demand(lines, lines[i].productId) <= products[lines[i].productId].stock
  }

  lemma {:induction false} DemandAbsent(lines: seq<Line>, productId: int)
    requires forall i :: 0 <= i < |lines| ==> lines[i].productId != productId
    ensures Demand(lines, productId) == 0
  {
    if |lines| > 0 {
      DemandAbsent(lines[1..], productId);
    }
  }

  /** Reserving the first line moves exactly its units from the demand to the stock taken, so
      coverage of all the lines is coverage of the rest against the lowered stock. */
  lemma CoveredAfterFirst(products: map<int, Product>, lines: seq<Line>, next: map<int, Product>)
    requires NonNegative(lines) && |lines| > 0
    requires lines[0].productId in products && products[lines[0].productId].stock >= lines[0].quantity
    requires next.Keys == products.Keys
    requires next[lines[0].productId].stock == products[lines[0].productId].stock - lines[0].quantity
    requires forall k :: k in products && k != lines[0].productId ==> next[k].stock == products[k].stock
    ensures Covered(products, lines) <==> Covered(next, lines[1..])
  {
    var l := lines[0];
    var rest := lines[1..];
    assert forall k :: k in products ==>
      Demand(lines, k) - products[k].stock == Demand(rest, k) - next[k].stock;
    if Covered(next, rest) {
      if exists i :: 0 <= i < |rest| && rest[i].productId == l.productId {
        var i :| 0 <= i < |rest| && rest[i].productId == l.productId;
        assert Demand(rest, l.productId) <= next[l.productId].stock;
      } else {
        DemandAbsent(rest, l.productId);
      }
      assert Demand(lines, l.productId) <= products[l.productId].stock;
      forall i | 0 <= i < |lines|
        ensures lines[i].productId in products && Demand(lines, lines[i].productId) <= products[lines[i].productId].stock
      {
        if i > 0 {
          assert lines[i] == rest[i - 1];
        }
      }
    }
    if Covered(products, lines) {
      forall i | 0 <= i < |rest|
        ensures rest[i].productId in next && Demand(rest, rest[i].productId) <= next[rest[i].productId].stock
      {
        assert lines[i + 1] == rest[i];
      }
    }
  }

  /** The conditional decrements succeed exactly when the stock covers the total demand for
      each product, and then each stock drops by exactly that demand: nothing is oversold and
      nothing is lost. */
  lemma {:induction false} ReserveExact(products: map<int, Product>, lines: seq<Line>)
    requires NonNegative(lines)
    ensures Reserve(products, lines).Some? <==> Covered(products, lines)
    ensures Reserve(products, lines).Some? ==>
              forall k :: k in products ==> Reserve(products, lines).value[k].stock == products[k].stock - Demand(lines, k)
    decreases |lines|
  {
    if |lines| > 0 {
      var l := lines[0];
      var rest := lines[1..];
      assert NonNegative(rest);
      if l.productId in products && products[l.productId].stock >= l.quantity {
        var p := products[l.productId];
        var next := products[l.productId := p.(stock := p.stock - l.quantity)];
        ReserveExact(next, rest);
        CoveredAfterFirst(products, lines, next);
      } else if l.productId in products {
        DemandNonNegative(rest, l.productId);
        assert Demand(lines, l.productId) > products[l.productId].stock;
      }
    }
  }

  /** Step 4, the batched `DELETE FROM cart WHERE id = ?`, one statement per requested id in
      order, with no filter on the customer: `None` as soon as one statement deletes nothing,
      which happens for an absent id and for the second copy of a repeated id. */
  function DeleteCartRows(cart: map<int, CartRow>, ids: seq<int>): (r: Option<map<int, CartRow>>)
    ensures r.Some? <==> Distinct(ids) && forall i :: 0 <= i < |ids| ==> ids[i] in cart
    ensures r.Some? ==> r.value == cart - ToSet(ids)
    decreases |ids|
  {
    if |ids| == 0 then Some(cart)
    else if ids[0] in cart then
      var r := DeleteCartRows(cart - {ids[0]}, ids[1..]);
      assert Distinct(ids) <==> Distinct(ids[1..]) && ids[0] !in ids[1..] by {
        if Distinct(ids[1..]) && ids[0] !in ids[1..] {
          forall i, j | 0 <= i < j < |ids|
            ensures ids[i] != ids[j]
          {
            if i == 0 {
              assert ids[j] == ids[1..][j - 1];
            } else {
              assert ids[i] == ids[1..][i - 1] && ids[j] == ids[1..][j - 1];
            }
          }
        }
        if Distinct(ids) {
          forall j | 0 <= j < |ids| - 1
            ensures ids[1..][j] != ids[0]
          {
            assert ids[1..][j] == ids[j + 1];
          }
        }
      }
      assert (forall i :: 0 <= i < |ids| ==> ids[i] in cart) && ids[0] !in ids[1..] <==>
             (forall i :: 0 <= i < |ids| - 1 ==> ids[1..][i] in cart - {ids[0]}) && ids[0] !in ids[1..] by {
        if ids[0] !in ids[1..] {
          forall i | 0 <= i < |ids| - 1
            ensures ids[1..][i] != ids[0]
          {
            assert ids[1..][i] in ids[1..];
          }
        }
        assert forall i :: 1 <= i < |ids| ==> ids[i] == ids[1..][i - 1];
      }
      assert r.Some? ==> r.value == cart - ToSet(ids) by {
        if r.Some? {
          assert ToSet(ids) == {ids[0]} + ToSet(ids[1..]) by {
            assert forall x :: x in ids <==> x == ids[0] || x in ids[1..];
          }
        }
      }
      r
    else
      None
  }

  // ---------------------------------------------------------------------------------------
  // createOrder

  /** `createOrder`: one transaction that inserts the header (status PENDING), inserts one item
      per line, decrements the stock of every line's product, and deletes every requested cart
      id, in that order. Any statement that affects no row rolls everything back and the result
      is -1 with the store as it was; otherwise the new order's generated id. */
  function CreateOrder(s: Store, customerId: int, total: Money, address: string,
                       lines: seq<Line>, cartIds: seq<int>): (r: Step<int>)
    ensures r.value == -1 || r.value == s.nextOrderId
    ensures r.value == -1 ==> r.store == s
    ensures r.value != -1 <==> Reserve(s.products, lines).Some? && DeleteCartRows(s.cart, cartIds).Some?
    ensures r.value != -1 ==>
              && r.store.orders == s.orders[s.nextOrderId := OrderHeader(s.nextOrderId, customerId, total, address, Pending)]
              && r.store.cart == s.cart - ToSet(cartIds)
              && r.store.products.Keys == s.products.Keys
              && r.store.nextOrderId == s.nextOrderId + 1
              && r.store.nextItemId == s.nextItemId + |lines|
              && r.store == s.(products := r.store.products, cart := r.store.cart, orders := r.store.orders,
                               items := r.store.items, nextOrderId := r.store.nextOrderId,
                               nextItemId := r.store.nextItemId)
  {
    var reserved := Reserve(s.products, lines);
    var remaining := DeleteCartRows(s.cart, cartIds);
    if reserved.None? || remaining.None? then Step(-1, s)
    else
      var id := s.nextOrderId;
      var items := InsertItems(s.items, s.nextItemId, id, lines);
      Step(id, s.(products := reserved.value, cart := remaining.value,
                  orders := s.orders[id := OrderHeader(id, customerId, total, address, Pending)],
                  items := items,
                  nextOrderId := id + 1, nextItemId := s.nextItemId + |lines|))
  }

  /** A committed order records one item per line, in line order, under fresh consecutive
      keys, each carrying the line's product, name, price and quantity; no earlier item
      changes. */
  lemma CreateOrderRecordsLines(s: Store, customerId: int, total: Money, address: string,
                                lines: seq<Line>, cartIds: seq<int>)
    requires CreateOrder(s, customerId, total, address, lines, cartIds).value != -1
    ensures var t := CreateOrder(s, customerId, total, address, lines, cartIds).store;
            && (forall k :: k in t.items <==> k in s.items || s.nextItemId <= k < s.nextItemId + |lines|)
            && (forall i :: 0 <= i < |lines| ==>
                  t.items[s.nextItemId + i] == ItemRow(s.nextItemId + i, s.nextOrderId, lines[i]))
            && (forall k :: k in s.items && !(s.nextItemId <= k < s.nextItemId + |lines|) ==>
                  t.items[k] == s.items[k])
  {
  }

  /** The transaction commits exactly when the stock covers every line and the requested cart
      ids are distinct rows that all exist; a commit lowers each product's stock by exactly the
      units ordered, and no stock ends negative. */
  lemma CreateOrderCommitsIff(s: Store, customerId: int, total: Money, address: string,
                              lines: seq<Line>, cartIds: seq<int>)
    requires NonNegative(lines)
    ensures var r := CreateOrder(s, customerId, total, address, lines, cartIds);
            r.value != -1 <==>
              && Covered(s.products, lines)
              && Distinct(cartIds)
              && (forall i :: 0 <= i < |cartIds| ==> cartIds[i] in s.cart)
    ensures var r := CreateOrder(s, customerId, total, address, lines, cartIds);
            r.value != -1 ==>
              forall k :: k in s.products ==>
                && r.store.products[k].stock == s.products[k].stock - Demand(lines, k)
                && r.store.products[k] == s.products[k].(stock := r.store.products[k].stock)
  {
    ReserveExact(s.products, lines);
  }

  /** A committed order keeps every schema invariant: in particular no stock is negative, and
      every new item belongs to the new header. */
  lemma CreateOrderPreservesValid(s: Store, customerId: int, total: Money, address: string,
                                  lines: seq<Line>, cartIds: seq<int>)
    requires Valid(s)
    ensures Valid(CreateOrder(s, customerId, total, address, lines, cartIds).store)
  {
    var r := CreateOrder(s, customerId, total, address, lines, cartIds);
    if r.value != -1 {
      var t := r.store;
      assert t.items == InsertItems(s.items, s.nextItemId, s.nextOrderId, lines);
      CommitValid(s, t, t.orders[s.nextOrderId], lines);
    }
  }

  /** The store a committed checkout leaves is valid: the products keep their keys with no
      negative stock, cart rows only disappear, one header is added under the next order key,
      and the new items go under it. */
  lemma CommitValid(s: Store, t: Store, h: OrderHeader, lines: seq<Line>)
    requires Valid(s)
    requires h.id == s.nextOrderId
    requires t.products.Keys == s.products.Keys && ProductsValid(t.products)
    requires forall k :: k in t.cart ==> k in s.cart && t.cart[k] == s.cart[k]
    requires t.orders == s.orders[s.nextOrderId := h]
    requires t.items == InsertItems(s.items, s.nextItemId, s.nextOrderId, lines)
    requires t.nextProductId == s.nextProductId && t.nextCartId == s.nextCartId
    requires t.nextOrderId == s.nextOrderId + 1 && t.nextItemId == s.nextItemId + |lines|
    ensures Valid(t)
  {
    assert forall k :: k in s.items ==> s.items[k].orderId in t.orders;
    ItemsValidAfterInsert(s.items, s.nextItemId, s.nextOrderId, lines, t.orders);
    CartValidShrinks(s.cart, t.cart);
  }

  /** New items under a header that exists, added to items that all belong to existing
      headers, leave every item with its own key and an existing header. */
  lemma ItemsValidAfterInsert(items: map<int, OrderItem>, next: int, orderId: int, lines: seq<Line>,
                              orders: map<int, OrderHeader>)
    requires orderId in orders
    requires forall k :: k in items ==> items[k].id == k && items[k].orderId in orders
    ensures var r := InsertItems(items, next, orderId, lines);
            forall k :: k in r ==> r[k].id == k && r[k].orderId in orders
  {
    var r := InsertItems(items, next, orderId, lines);
    forall k | k in r
      ensures r[k].id == k && r[k].orderId in orders
    {
      if next <= k < next + |lines| {
        assert r[next + (k - next)] == ItemRow(k, orderId, lines[k - next]);
      }
    }
  }

  /** Two orders for the last unit of a product, applied one after the other: the first
      commits, the second is rolled back, and the stock ends at zero. */
  lemma LastUnitSoldOnce(s: Store, productId: int, c1: int, c2: int, cart1: int, cart2: int)
    requires Valid(s)
    requires productId in s.products && s.products[productId].stock == 1
    requires cart1 in s.cart && cart2 in s.cart && cart1 != cart2
    ensures var line := Line(productId, s.products[productId].name, 0.0, 1);
            var first := CreateOrder(s, c1, 0.0, "a", [line], [cart1]);
            var second := CreateOrder(first.store, c2, 0.0, "b", [line], [cart2]);
            && first.value != -1
            && second.value == -1
            && second.store.products[productId].stock == 0
  {
    var line := Line(productId, s.products[productId].name, 0.0, 1);
    CreateOrderCommitsIff(s, c1, 0.0, "a", [line], [cart1]);
    var first := CreateOrder(s, c1, 0.0, "a", [line], [cart1]);
    assert Demand([line], productId) == 1;
    assert Covered(s.products, [line]);
    assert first.store.products[productId].stock == 0;
    CreateOrderCommitsIff(first.store, c2, 0.0, "b", [line], [cart2]);
    assert !Covered(first.store.products, [line]);
  }

  // ---------------------------------------------------------------------------------------
  // deleteOrder and updateOrderStatus

  /** The items of every order except `orderId`. */
  function ItemsNotOf(items: map<int, OrderItem>, orderId: int): (r: map<int, OrderItem>)
    ensures forall k :: k in r <==> k in items && items[k].orderId != orderId
    ensures forall k :: k in r ==> r[k] == items[k]
  {
    map k | k in items && items[k].orderId != orderId :: items[k]
  }

  /** `deleteOrder`: the ownership check reads the header before any write; an absent order, or
      a requester who neither owns it nor is an administrator, gets `false` with nothing
      changed. Otherwise the order's items are deleted, then its header; a header delete that
      affects no row rolls back. */
  function DeleteOrder(s: Store, orderId: int, customerId: int, isAdmin: bool): (r: Step<bool>)
    ensures r.value <==> orderId in s.orders && (s.orders[orderId].customerId == customerId || isAdmin)
    ensures !r.value ==> r.store == s
    ensures r.value ==> r.store == s.(orders := s.orders - {orderId}, items := ItemsNotOf(s.items, orderId))
  {
    if orderId !in s.orders then Step(false, s)
    else if s.orders[orderId].customerId != customerId && !isAdmin then Step(false, s)
    else
      var afterItems := s.(items := ItemsNotOf(s.items, orderId));
      if orderId !in afterItems.orders then Step(false, s)
      else Step(true, afterItems.(orders := afterItems.orders - {orderId}))
  }

  /** Deleting an order removes all of its items and leaves every other order, with its items,
      as it was. */
  lemma DeleteOrderLeavesOthers(s: Store, orderId: int, customerId: int, isAdmin: bool)
    requires DeleteOrder(s, orderId, customerId, isAdmin).value
    ensures var t := DeleteOrder(s, orderId, customerId, isAdmin).store;
            && orderId !in t.orders
            && (forall k :: k in t.items ==> t.items[k].orderId != orderId)
            && (forall o :: o in s.orders && o != orderId ==> o in t.orders && t.orders[o] == s.orders[o])
            && (forall k :: k in s.items && s.items[k].orderId != orderId ==> k in t.items && t.items[k] == s.items[k])
            && t.products == s.products && t.cart == s.cart
  {
  }

  lemma DeleteOrderPreservesValid(s: Store, orderId: int, customerId: int, isAdmin: bool)
    requires Valid(s)
    ensures Valid(DeleteOrder(s, orderId, customerId, isAdmin).store)
  {
  }

  /** `updateOrderStatus`: any string becomes the status of the order with this id; `true`
      exactly when such an order exists. No transition is checked. */
  function UpdateOrderStatus(s: Store, orderId: int, status: string): (r: Step<bool>)
    ensures r.value <==> orderId in s.orders
    ensures !r.value ==> r.store == s
    ensures r.value ==> r.store.orders == s.orders[orderId := s.orders[orderId].(status := status)]
    ensures r.store == s.(orders := r.store.orders)
  {
    if orderId in s.orders then Step(true, s.(orders := s.orders[orderId := s.orders[orderId].(status := status)]))
    else Step(false, s)
  }

  /** Setting the same status again succeeds and changes nothing. */
  lemma UpdateOrderStatusIdempotent(s: Store, orderId: int, status: string)
    requires orderId in s.orders
    ensures var once := UpdateOrderStatus(s, orderId, status);
            var twice := UpdateOrderStatus(once.store, orderId, status);
            twice.value && twice.store == once.store
  {
  }

  lemma UpdateOrderStatusPreservesValid(s: Store, orderId: int, status: string)
    requires Valid(s)
    ensures Valid(UpdateOrderStatus(s, orderId, status).store)
  {
  }

  // ---------------------------------------------------------------------------------------
  // Read paths

  /** An item as `getOrderItemsByOrderId` returns it: the price captured at purchase, but the
      name of the product row as it is now. */
  datatype ItemView = ItemView(id: int, orderId: int, productId: int, productName: string,
                               priceAtPurchase: Money, quantity: int)

  /** An order as the read paths return it. `customerName` is `None` for the per-customer list,
      whose query does not select it. */
  datatype OrderView = OrderView(id: int, customerId: int, customerName: Option<string>, total: Money,
                                 address: string, status: string, items: seq<ItemView>)

  /** The item under key `k` joined with its product. */
  function ViewItem(k: int, item: OrderItem, p: Product): ItemView {
    ItemView(k, item.orderId, item.productId, p.name, item.price, item.quantity)
  }

  /** The item row under `k` belongs to the order and its product row exists (the inner join). */
  predicate Listed(s: Store, orderId: int, k: int) {
    k in s.items && s.items[k].orderId == orderId && s.items[k].productId in s.products
  }

  /** The order's items among `keys`, joined with their products, in the order of `keys`. */
  function ItemsOf(s: Store, keys: seq<int>, orderId: int): (r: seq<ItemView>)
    ensures forall i :: 0 <= i < |r| ==>
              && r[i].id in keys && Listed(s, orderId, r[i].id)
              && r[i] == ViewItem(r[i].id, s.items[r[i].id], s.products[s.items[r[i].id].productId])
    ensures Increasing(keys) ==> forall i, j :: 0 <= i < j < |r| ==> r[i].id < r[j].id
  {
    if |keys| == 0 then []
    else
      var k := keys[0];
      var rest := ItemsOf(s, keys[1..], orderId);
      assert forall k' :: k' in keys[1..] ==> k' in keys;
      if Listed(s, orderId, k) then [ViewItem(k, s.items[k], s.products[s.items[k].productId])] + rest
      else rest
  }

  /** No listed item among `keys` is missed. */
  lemma {:induction false} ItemsOfComplete(s: Store, keys: seq<int>, orderId: int, k: int)
    requires k in keys && Listed(s, orderId, k)
    ensures exists i :: 0 <= i < |ItemsOf(s, keys, orderId)| && ItemsOf(s, keys, orderId)[i].id == k
  {
    var r := ItemsOf(s, keys, orderId);
    if k == keys[0] {
      assert r[0].id == k;
    } else {
      assert k in keys[1..] by {
        var j :| 0 <= j < |keys| && keys[j] == k;
        assert keys[1..][j - 1] == k;
      }
      ItemsOfComplete(s, keys[1..], orderId, k);
      var rest := ItemsOf(s, keys[1..], orderId);
      var i :| 0 <= i < |rest| && rest[i].id == k;
      if Listed(s, orderId, keys[0]) {
        assert r[i + 1].id == k;
      } else {
        assert r[i].id == k;
      }
    }
  }

  /** `getOrderItemsByOrderId`: the order's items, in item-key order, each with the current
      name of its product. A soft-deleted product still joins; an item whose product row is
      gone is not listed. */
  function GetOrderItems(s: Store, orderId: int): (r: seq<ItemView>)
    ensures forall i :: 0 <= i < |r| ==>
              && Listed(s, orderId, r[i].id)
              && r[i] == ViewItem(r[i].id, s.items[r[i].id], s.products[s.items[r[i].id].productId])
    ensures Valid(s) ==> forall k :: Listed(s, orderId, k) ==> exists i :: 0 <= i < |r| && r[i].id == k
    ensures forall i, j :: 0 <= i < j < |r| ==> r[i].id < r[j].id
  {
    var keys := KeysBetween(s.items.Keys, 1, s.nextItemId);
    assert Valid(s) ==> forall k :: Listed(s, orderId, k) ==>
                          exists i :: 0 <= i < |ItemsOf(s, keys, orderId)| && ItemsOf(s, keys, orderId)[i].id == k by {
      if Valid(s) {
        forall k | Listed(s, orderId, k)
          ensures exists i :: 0 <= i < |ItemsOf(s, keys, orderId)| && ItemsOf(s, keys, orderId)[i].id == k
        {
          ItemsOfComplete(s, keys, orderId, k);
        }
      }
    }
    ItemsOf(s, keys, orderId)
  }

  /** Changing product rows without adding or removing any changes the listed items only in
      their product names: ids, prices and quantities stay those recorded at purchase. */
  lemma {:induction false} ItemsOfUnderProductChange(s: Store, t: Store, keys: seq<int>, orderId: int)
    requires t.items == s.items && t.products.Keys == s.products.Keys
    ensures |ItemsOf(t, keys, orderId)| == |ItemsOf(s, keys, orderId)|
    ensures forall i :: 0 <= i < |ItemsOf(s, keys, orderId)| ==>
              ItemsOf(t, keys, orderId)[i]
                == ItemsOf(s, keys, orderId)[i].(productName := t.products[ItemsOf(s, keys, orderId)[i].productId].name)
  {
    if |keys| > 0 {
      ItemsOfUnderProductChange(s, t, keys[1..], orderId);
    }
  }

  /** Editing a product after it was ordered leaves every order's prices and quantities as they
      were; only the product name shown with the item follows the edit. */
  lemma ProductUpdateKeepsPurchasePrice(s: Store, productId: int, p: ProductDao.ProductInput, orderId: int)
    ensures var before := GetOrderItems(s, orderId);
            var after := GetOrderItems(ProductDao.UpdateProduct(s, productId, p).store, orderId);
            && |after| == |before|
            && forall i :: 0 <= i < |before| ==>
                 && after[i].id == before[i].id
                 && after[i].priceAtPurchase == before[i].priceAtPurchase
                 && after[i].quantity == before[i].quantity
                 && after[i].productName
                      == (if ProductDao.Live(s.products, productId) && before[i].productId == productId
                          then p.name else before[i].productName)
  {
    var t := ProductDao.UpdateProduct(s, productId, p).store;
    ItemsOfUnderProductChange(s, t, KeysBetween(s.items.Keys, 1, s.nextItemId), orderId);
  }

  /** Soft-deleting a product leaves every order's item list exactly as it was. */
  lemma ProductDeleteKeepsOrderItems(s: Store, productId: int, orderId: int)
    ensures GetOrderItems(ProductDao.DeleteProduct(s, productId).store, orderId) == GetOrderItems(s, orderId)
  {
    var t := ProductDao.DeleteProduct(s, productId).store;
    ItemsOfUnderProductChange(s, t, KeysBetween(s.items.Keys, 1, s.nextItemId), orderId);
  }

  /** The name the joins show for a customer: the username, or "Customer " and the id when the
      username is NULL. */
  function CustomerName(s: Store, customerId: int): (r: string)
    requires customerId in s.customers
    ensures s.customers[customerId].Some? ==> r == s.customers[customerId].value
    ensures s.customers[customerId].None? ==> "Customer " <= r && r[9..] == ShowInt(customerId)
  {
    s.customers[customerId].GetOr("Customer " + ShowInt(customerId))
  }

  /** The order under `k` with its items. */
  function ViewOrder(s: Store, k: int, customerName: Option<string>): OrderView
    requires k in s.orders
  {
    var h := s.orders[k];
    OrderView(k, h.customerId, customerName, h.total, h.address, h.status, GetOrderItems(s, k))
  }

  /** `getOrderById`: the order with this id, joined with its customer; `None` (the source's
      `null`) when there is no such order or its customer row is gone. */
  function GetOrderById(s: Store, orderId: int): (r: Option<OrderView>)
    ensures r.Some? <==> orderId in s.orders && s.orders[orderId].customerId in s.customers
    ensures r.Some? ==>
              && r.value.id == orderId
              && r.value.customerId == s.orders[orderId].customerId
              && r.value.status == s.orders[orderId].status
              && r.value.total == s.orders[orderId].total
              && r.value.address == s.orders[orderId].address
              && r.value.customerName == Some(CustomerName(s, s.orders[orderId].customerId))
              && r.value.items == GetOrderItems(s, orderId)
  {
    if orderId in s.orders && s.orders[orderId].customerId in s.customers then
      Some(ViewOrder(s, orderId, Some(CustomerName(s, s.orders[orderId].customerId))))
    else None
  }

  /** `getOrdersByCustomerId`: every order of this customer, without a customer join. The
      source sorts by order date, which is not modelled, so the result is a set. */
  function GetOrdersByCustomer(s: Store, customerId: int): (r: set<OrderView>)
    ensures forall v :: v in r ==>
              && v.id in s.orders && s.orders[v.id].customerId == customerId && v.customerId == customerId
              && v.customerName == None && v.total == s.orders[v.id].total
              && v.address == s.orders[v.id].address && v.status == s.orders[v.id].status
              && v.items == GetOrderItems(s, v.id)
    ensures forall k :: k in s.orders && s.orders[k].customerId == customerId ==> ViewOrder(s, k, None) in r
  {
    set k | k in s.orders && s.orders[k].customerId == customerId :: ViewOrder(s, k, None)
  }

  /** `getAllOrders`: every order whose customer row exists, with the customer's name. */
  function GetAllOrders(s: Store): (r: set<OrderView>)
    ensures forall v :: v in r ==> v.id in s.orders && s.orders[v.id].customerId in s.customers && GetOrderById(s, v.id) == Some(v)
    ensures forall k :: k in s.orders && s.orders[k].customerId in s.customers ==>
              GetOrderById(s, k).Some? && GetOrderById(s, k).value in r
  {
    set k | k in s.orders && s.orders[k].customerId in s.customers ::
      ViewOrder(s, k, Some(CustomerName(s, s.orders[k].customerId)))
  }
}

=== FILE: order_servlet.dfy ===
/** The order endpoints (servlet/OrderServlet.java): placing an order from cart rows, and the
    owner-or-administrator rules for reading, deleting and re-labelling orders. Each handler is
    a function of the store and the request that returns the reply and the store after it. */
module OrderServlet {
  import opened Wrappers
  import opened JavaLang
  import opened Model
  import opened Http
  import CartDao
  import OrderDao

  /** The `cartItemIds` field: absent or `null` (treated as an empty list), a list of numbers
      already narrowed with `Double.intValue`, or something that is not a list, whose cast
      throws `ClassCastException`. */
  datatype IdList = NoList | Ids(ids: seq<Int32>) | NotList

  /** The parsed body of `POST /api/order`. */
  datatype PostBody = PostBody(shippingAddress: Field, cartItemIds: IdList)

  /** The parsed body of `PUT /api/order/{id}/status`. */
  datatype StatusBody = StatusBody(orderStatus: Field, status: Field)

  /** The data part of a reply; the human-readable messages are not modelled. */
  datatype Payload =
    | Message
    | NewOrder(orderId: int)
    | OrderList(orders: set<OrderDao.OrderView>)
    | OrderDetail(order: OrderDao.OrderView)

  datatype Reply = Reply(status: int, payload: Payload)

  /** A reply that carries only its status and a human-readable message. */
  function Plain(status: int): Reply {
    Reply(status, Message)
  }

  // ---------------------------------------------------------------------------------------
  // Resolving the requested cart rows into order lines

  /** A row the loop does not skip: the DAO always yields numbers for the id, product and
      quantity columns, so only a NULL price makes a row unusable. */
  predicate Usable(e: CartDao.CartEntry) {
    e.price.Some?
  }

  predicate Chosen(e: CartDao.CartEntry, requested: seq<Int32>) {
    Usable(e) && e.cartId in requested
  }

  /** The order line a cart row becomes: its product, name, price and quantity as read. */
  function LineOf(e: CartDao.CartEntry): OrderDao.Line
    requires Usable(e)
  {
    OrderDao.Line(e.productId, e.name, e.price.value, e.quantity)
  }

  /** The rows of the cart view the order takes: those with a price whose id was requested,
      in the order of the view. */
  function Picked(view: seq<CartDao.CartEntry>, requested: seq<Int32>): (r: seq<CartDao.CartEntry>)
    ensures forall i :: 0 <= i < |r| ==> r[i] in view && Chosen(r[i], requested)
    ensures forall e :: e in view && Chosen(e, requested) ==> e in r
  {
    if |view| == 0 then []
    else
      var rest := Picked(view[1..], requested);
      assert forall x :: x in view[1..] ==> x in view;
      assert forall e :: e in view ==> e == view[0] || e in view[1..];
      if Chosen(view[0], requested) then [view[0]] + rest else rest
  }

  predicate AscendingIds(es: seq<CartDao.CartEntry>) {
    forall i, j :: 0 <= i < j < |es| ==> es[i].cartId < es[j].cartId
  }

  /** A row below every row of an ascending run keeps it ascending when put in front. */
  lemma AscendingCons(e: CartDao.CartEntry, rest: seq<CartDao.CartEntry>)
    requires AscendingIds(rest)
    requires forall k :: 0 <= k < |rest| ==> e.cartId < rest[k].cartId
    ensures AscendingIds([e] + rest)
  {
    var r := [e] + rest;
    forall a, b | 0 <= a < b < |r|
      ensures r[a].cartId < r[b].cartId
    {
      assert r[b] == rest[b - 1];
      if a > 0 {
        assert r[a] == rest[a - 1];
      }
    }
  }

  /** Picking keeps the order of the view: rows in ascending cart-id order stay so, hence no
      cart id is picked twice. */
  lemma {:induction false} PickedIncreasing(view: seq<CartDao.CartEntry>, requested: seq<Int32>)
    requires AscendingIds(view)
    ensures AscendingIds(Picked(view, requested))
    decreases |view|
  {
    if |view| > 0 {
      var tail := view[1..];
      var rest := Picked(tail, requested);
      assert AscendingIds(tail) by {
        forall a, b | 0 <= a < b < |tail|
          ensures tail[a].cartId < tail[b].cartId
        {
          assert tail[a] == view[a + 1] && tail[b] == view[b + 1];
        }
      }
      PickedIncreasing(tail, requested);
      forall k | 0 <= k < |rest|
        ensures view[0].cartId < rest[k].cartId
      {
        assert rest[k] in tail;
        var j :| 0 <= j < |tail| && tail[j] == rest[k];
        assert view[j + 1] == rest[k];
      }
      if Chosen(view[0], requested) {
        AscendingCons(view[0], rest);
      }
    }
  }

  function Lines(es: seq<CartDao.CartEntry>): (r: seq<OrderDao.Line>)
    requires forall i :: 0 <= i < |es| ==> Usable(es[i])
    ensures |r| == |es|
  {
    seq(|es|, i requires 0 <= i < |es| => LineOf(es[i]))
  }

  function CartIds(es: seq<CartDao.CartEntry>): (r: seq<int>)
    ensures |r| == |es|
  {
    seq(|es|, i requires 0 <= i < |es| => es[i].cartId)
  }

  /** `price.multiply(new BigDecimal(quantity))`. */
  function Amount(l: OrderDao.Line): Money {
    l.price * (l.quantity as real)
  }

  /** The exact sum of price times quantity over the lines, from zero. */
  function Total(lines: seq<OrderDao.Line>): Money {
    if |lines| == 0 then 0.0 else Total(lines[..|lines| - 1]) + Amount(lines[|lines| - 1])
  }

  /** Appending a row to the view appends it to the picked rows when it is chosen: picking
      row by row, as the loop does, gives the same rows. */
  lemma {:induction false} PickedSnoc(view: seq<CartDao.CartEntry>, e: CartDao.CartEntry, requested: seq<Int32>)
    ensures Picked(view + [e], requested) == Picked(view, requested) + (if Chosen(e, requested) then [e] else [])
    decreases |view|
  {
    if |view| == 0 {
      assert (view + [e])[1..] == [];
    } else {
      assert (view + [e])[0] == view[0];
      assert (view + [e])[1..] == view[1..] + [e];
      PickedSnoc(view[1..], e, requested);
    }
  }

  lemma LinesSnoc(es: seq<CartDao.CartEntry>, e: CartDao.CartEntry)
    requires forall i :: 0 <= i < |es| ==> Usable(es[i])
    requires Usable(e)
    ensures Lines(es + [e]) == Lines(es) + [LineOf(e)]
    ensures CartIds(es + [e]) == CartIds(es) + [e.cartId]
  {
  }

  /** Picking the rows of a prefix one row longer adds that row when it is chosen. */
  lemma PickedPrefix(view: seq<CartDao.CartEntry>, i: nat, requested: seq<Int32>)
    requires i < |view|
    ensures Picked(view[..i + 1], requested)
         == Picked(view[..i], requested) + (if Chosen(view[i], requested) then [view[i]] else [])
  {
    assert view[..i + 1] == view[..i] + [view[i]];
    PickedSnoc(view[..i], view[i], requested);
  }

  /** Adding a line to the end adds its amount to the total. */
  lemma TotalSnoc(lines: seq<OrderDao.Line>, l: OrderDao.Line)
    ensures Total(lines + [l]) == Total(lines) + Amount(l)
  {
    assert (lines + [l])[..|lines|] == lines;
  }

  /** The loop of `doPost` over the customer's cart view: skip rows with a NULL price, take
      those whose id was requested, and sum price times quantity. It computes exactly the
      picked rows' lines, their cart ids and their total. */
  method ResolveCart(view: seq<CartDao.CartEntry>, requested: seq<Int32>)
    returns (lines: seq<OrderDao.Line>, cartIds: seq<int>, total: Money)
    ensures lines == Lines(Picked(view, requested))
    ensures cartIds == CartIds(Picked(view, requested))
    ensures total == Total(lines)
  {
    lines, cartIds, total := [], [], 0.0;
    var i := 0;
    while i < |view|
      invariant 0 <= i <= |view|
      invariant lines == Lines(Picked(view[..i], requested))
      invariant cartIds == CartIds(Picked(view[..i], requested))
      invariant total == Total(lines)
    {
      var e := view[i];
      PickedPrefix(view, i, requested);
      if Usable(e) && e.cartId in requested {
        var line := LineOf(e);
        LinesSnoc(Picked(view[..i], requested), e);
        TotalSnoc(lines, line);
        lines := lines + [line];
        cartIds := cartIds + [e.cartId];
        total := total + Amount(line);
      }
      i := i + 1;
    }
    assert view[..|view|] == view;
  }

  // ---------------------------------------------------------------------------------------
  // POST /api/order

  /** Where `doPost` stands before it calls the DAO: either it has already answered, or it
      has a customer, an address, the requested ids and at least one picked row. */
  datatype Plan =
    | Early(reply: Reply)
    | Ready(customerId: Int32, address: string, requested: seq<Int32>, picked: seq<CartDao.CartEntry>)

  /** The checks of `doPost` up to the DAO call, in source order: no user (401); a user id
      that is not a number, an unreadable body or a field of the wrong type (500); a missing
      address or an empty id list (400); no usable requested row in the cart (400). */
  function Prepare(s: Store, attrs: Attrs, body: Option<PostBody>): (r: Plan)
    ensures attrs.userId.None? ==> r == Early(Plain(Unauthorized))
    ensures r.Early? ==> r.reply.status in {BadRequest, Unauthorized, ServerError} && r.reply.payload == Message
    ensures r.Ready? ==>
              && attrs.userId.Some? && ParseInt(attrs.userId.value) == Some(r.customerId)
              && body.Some? && body.value.shippingAddress == Text(r.address)
              && body.value.cartItemIds == Ids(r.requested) && |r.requested| > 0
              && r.picked == Picked(CartDao.GetCartItems(s, r.customerId), r.requested)
              && |r.picked| > 0
  {
    match attrs.userId
    case None => Early(Plain(Unauthorized))
    case Some(u) =>
      match ParseInt(u)
      case None => Early(Plain(ServerError))
      case Some(customerId) =>
        match body
        case None => Early(Plain(ServerError))
        case Some(b) =>
          if b.shippingAddress.NotText? || b.cartItemIds.NotList? then Early(Plain(ServerError))
          else
            var requested := if b.cartItemIds.Ids? then b.cartItemIds.ids else [];
            if b.shippingAddress.Missing? || |requested| == 0 then Early(Plain(BadRequest))
            else
              var picked := Picked(CartDao.GetCartItems(s, customerId), requested);
              if |picked| == 0 then Early(Plain(BadRequest))
              else Ready(customerId, b.shippingAddress.text, requested, picked)
  }

  /** The DAO call and the reply: 201 with the id when the transaction commits, 500 when it
      rolls back. */
  function Place(s: Store, customerId: Int32, address: string, picked: seq<CartDao.CartEntry>,
                 cartIds: seq<int>): (r: Step<Reply>)
    requires forall i :: 0 <= i < |picked| ==> Usable(picked[i])
    ensures r.value.status == Created || r.value == Plain(ServerError)
    ensures r.value.status == Created ==> r.value.payload == NewOrder(s.nextOrderId)
    ensures r.value.status != Created ==> r.store == s
    ensures r.store == OrderDao.CreateOrder(s, customerId, Total(Lines(picked)), address, Lines(picked), cartIds).store
  {
    var lines := Lines(picked);
    var result := OrderDao.CreateOrder(s, customerId, Total(lines), address, lines, cartIds);
    if result.value > 0 then Step(Reply(Created, NewOrder(result.value)), result.store)
    else Step(Plain(ServerError), result.store)
  }

  /** `doPost` as written: the DAO is handed every requested cart id, including ids that did
      not resolve to one of this customer's rows. */
  function HandlePostAsWritten(s: Store, attrs: Attrs, body: Option<PostBody>): (r: Step<Reply>)
    ensures r.value.status in {Created, BadRequest, Unauthorized, ServerError}
    ensures r.value.status != Created ==> r.store == s
    ensures r.value.status == Created ==>
              && Prepare(s, attrs, body).Ready?
              && r.store.cart == s.cart - ToSet(Prepare(s, attrs, body).requested)
  {
    match Prepare(s, attrs, body)
    case Early(reply) => Step(reply, s)
    case Ready(customerId, address, requested, picked) => Place(s, customerId, address, picked, requested)
  }

  /** `doPost` consuming only the cart rows the order was built from. */
  function HandlePost(s: Store, attrs: Attrs, body: Option<PostBody>): (r: Step<Reply>)
    ensures r.value.status in {Created, BadRequest, Unauthorized, ServerError}
    ensures r.value.status != Created ==> r.store == s
    ensures r.value.status == Created ==>
              && Prepare(s, attrs, body).Ready?
              && r.store.cart == s.cart - ToSet(CartIds(Prepare(s, attrs, body).picked))
  {
    match Prepare(s, attrs, body)
    case Early(reply) => Step(reply, s)
    case Ready(customerId, address, _, picked) => Place(s, customerId, address, picked, CartIds(picked))
  }

  /** A missing address or an empty id list is answered with 400 before any write. */
  lemma PostRejectsIncompleteRequest(s: Store, attrs: Attrs, b: PostBody)
    requires attrs.userId.Some? && ParseInt(attrs.userId.value).Some?
    requires b.shippingAddress != NotText && b.cartItemIds != NotList
    requires b.shippingAddress == Missing || b.cartItemIds == NoList || b.cartItemIds == Ids([])
    ensures HandlePostAsWritten(s, attrs, Some(b)) == Step(Plain(BadRequest), s)
    ensures HandlePost(s, attrs, Some(b)) == Step(Plain(BadRequest), s)
  {
  }

  /** When none of the requested ids names a priced row of this customer's cart, the reply is
      400 and the DAO is not called. */
  lemma PostRejectsWhenNothingResolves(s: Store, attrs: Attrs, address: string, requested: seq<Int32>)
    requires attrs.userId.Some? && ParseInt(attrs.userId.value).Some?
    requires |requested| > 0
    requires forall e :: e in CartDao.GetCartItems(s, ParseInt(attrs.userId.value).value) ==> !Chosen(e, requested)
    ensures HandlePostAsWritten(s, attrs, Some(PostBody(Text(address), Ids(requested)))) == Step(Plain(BadRequest), s)
    ensures HandlePost(s, attrs, Some(PostBody(Text(address), Ids(requested)))) == Step(Plain(BadRequest), s)
  {
  }

  /** The lines of an order are this customer's priced, requested cart rows, each carrying the
      product's name and price as the cart view showed them, and the total is their sum. */
  lemma PostLinesCapturePrices(s: Store, attrs: Attrs, body: Option<PostBody>)
    requires Prepare(s, attrs, body).Ready?
    ensures var p := Prepare(s, attrs, body);
            var lines := Lines(p.picked);
            && (forall i :: 0 <= i < |lines| ==>
                  && p.picked[i] in CartDao.GetCartItems(s, p.customerId)
                  && CartDao.Owned(s, p.customerId, p.picked[i].cartId)
                  && p.picked[i].cartId in p.requested
                  && lines[i].productId == p.picked[i].productId
                  && lines[i].productName == p.picked[i].name
                  && Some(lines[i].price) == p.picked[i].price
                  && lines[i].quantity == p.picked[i].quantity)
  {
    var p := Prepare(s, attrs, body);
    forall i | 0 <= i < |p.picked|
      ensures p.picked[i] in CartDao.GetCartItems(s, p.customerId)
    {
      assert p.picked[i] in p.picked;
    }
  }

  /** With a consistent store, the fixed `doPost` creates the order exactly when the checks
      pass and the stock covers every line; it then removes exactly the picked rows, all of
      them this customer's, and leaves every other cart row alone. */
  lemma PostCreatesIff(s: Store, attrs: Attrs, body: Option<PostBody>)
    requires Valid(s)
    ensures var r := HandlePost(s, attrs, body);
            var p := Prepare(s, attrs, body);
            r.value.status == Created <==> p.Ready? && OrderDao.Covered(s.products, Lines(p.picked))
    ensures var r := HandlePost(s, attrs, body);
            var p := Prepare(s, attrs, body);
            r.value.status == Created ==>
              && r.store.cart == s.cart - ToSet(CartIds(p.picked))
              && (forall k :: k in ToSet(CartIds(p.picked)) ==> CartDao.Owned(s, p.customerId, k))
              && (forall k :: k in s.cart && s.cart[k].customerId != p.customerId ==>
                    k in r.store.cart && r.store.cart[k] == s.cart[k])
  {
    var p := Prepare(s, attrs, body);
    if p.Ready? {
      var ids := CartIds(p.picked);
      var lines := Lines(p.picked);
      PickedFromCart(s, p.customerId, p.requested);
      assert forall i :: 0 <= i < |ids| ==> ids[i] in s.cart;
      OrderDao.CreateOrderCommitsIff(s, p.customerId, Total(lines), p.address, lines, ids);
      assert HandlePost(s, attrs, body) == Place(s, p.customerId, p.address, p.picked, ids);
      forall k | k in ToSet(ids)
        ensures CartDao.Owned(s, p.customerId, k)
      {
        var i :| 0 <= i < |ids| && ids[i] == k;
      }
    }
  }

  /** With a consistent store, `doPost` as written creates the order exactly when the checks
      pass, the stock covers every line, and every requested id, resolved or not, names a
      distinct cart row; it then removes every requested row, whoever owns it. */
  lemma PostAsWrittenCreatesIff(s: Store, attrs: Attrs, body: Option<PostBody>)
    requires Valid(s)
    ensures var r := HandlePostAsWritten(s, attrs, body);
            var p := Prepare(s, attrs, body);
            r.value.status == Created <==>
              && p.Ready?
              && OrderDao.Covered(s.products, Lines(p.picked))
              && Distinct(p.requested)
              && (forall i :: 0 <= i < |p.requested| ==> p.requested[i] in s.cart)
    ensures var r := HandlePostAsWritten(s, attrs, body);
            var p := Prepare(s, attrs, body);
            r.value.status == Created ==> r.store.cart == s.cart - ToSet(p.requested)
  {
    var p := Prepare(s, attrs, body);
    if p.Ready? {
      var lines := Lines(p.picked);
      PickedFromCart(s, p.customerId, p.requested);
      OrderDao.CreateOrderCommitsIff(s, p.customerId, Total(lines), p.address, lines, p.requested);
      assert HandlePostAsWritten(s, attrs, body) == Place(s, p.customerId, p.address, p.picked, p.requested);
    }
  }

  /** The rows picked from a customer's cart view are that customer's own, no id occurs twice,
      and no line asks for a negative quantity. */
  lemma PickedFromCart(s: Store, customerId: int, requested: seq<Int32>)
    requires Valid(s)
    ensures var picked := Picked(CartDao.GetCartItems(s, customerId), requested);
            var ids := CartIds(picked);
            && Distinct(ids)
            && (forall i :: 0 <= i < |ids| ==> CartDao.Owned(s, customerId, ids[i]))
            && OrderDao.NonNegative(Lines(picked))
  {
    var view := CartDao.GetCartItems(s, customerId);
    var picked := Picked(view, requested);
    var ids := CartIds(picked);
    var lines := Lines(picked);
    PickedIncreasing(view, requested);
    forall i | 0 <= i < |picked|
      ensures CartDao.Owned(s, customerId, ids[i]) && lines[i].quantity >= 0
    {
      assert picked[i] in picked;
      var j :| 0 <= j < |view| && view[j] == picked[i];
      assert s.cart[view[j].cartId].quantity > 0;
    }
  }

  /** A shop with one product and two cart rows for it: row 1 is customer 1's, row 2 is
      customer 2's. */
  function TwoCarts(): (s: Store)
    ensures Valid(s)
    ensures 2 in s.cart && s.cart[2].customerId == 2
  {
    Empty().(products := map[1 := Product(1, "pen", "", Some(1.0), 5, "", false)],
             cart := map[1 := CartRow(1, 1, 1, 1), 2 := CartRow(2, 2, 1, 1)],
             customers := map[1 := None, 2 := None],
             nextProductId := 2, nextCartId := 3)
  }

  /** Customer 1's cart view holds row 1 only. */
  lemma TwoCartsView()
    ensures var s := TwoCarts();
            CartDao.GetCartItems(s, 1) == [CartDao.Join(1, s.cart[1], s.products[1])]
  {
    var s := TwoCarts();
    var entry := CartDao.Join(1, s.cart[1], s.products[1]);
    assert KeysBetween(s.cart.Keys, 3, 3) == [];
    assert KeysBetween(s.cart.Keys, 2, 3) == [2];
    assert KeysBetween(s.cart.Keys, 1, 3) == [1, 2];
    assert CartDao.EntriesOf(s, [2], 1) == [] by {
      assert [2][1..] == [];
    }
    assert CartDao.EntriesOf(s, [1, 2], 1) == [entry] by {
      assert [1, 2][1..] == [2];
    }
  }

  /** Customer 1 asks for rows 1 and 2; only row 1 is picked. */
  lemma TwoCartsPlan()
    ensures var s := TwoCarts();
            Prepare(s, Attrs(Some("1"), None, None), Some(PostBody(Text("home"), Ids([1, 2]))))
              == Ready(1, "home", [1, 2], [CartDao.Join(1, s.cart[1], s.products[1])])
  {
    var s := TwoCarts();
    var entry := CartDao.Join(1, s.cart[1], s.products[1]);
    assert ParseInt("1") == Some(1);
    TwoCartsView();
    assert Picked([entry], [1, 2]) == [entry] by {
      assert [entry][1..] == [];
    }
    PrepareReady(s, Attrs(Some("1"), None, None), 1, "home", [1, 2]);
  }

  /** A well-formed request from a known user with at least one usable requested row gets as
      far as the DAO. */
  lemma PrepareReady(s: Store, attrs: Attrs, customerId: Int32, address: string, requested: seq<Int32>)
    requires attrs.userId.Some? && ParseInt(attrs.userId.value) == Some(customerId)
    requires |requested| > 0 && |Picked(CartDao.GetCartItems(s, customerId), requested)| > 0
    ensures Prepare(s, attrs, Some(PostBody(Text(address), Ids(requested))))
              == Ready(customerId, address, requested, Picked(CartDao.GetCartItems(s, customerId), requested))
  {
  }

  /** As written, a customer who lists another customer's cart id next to one of their own
      gets an order built from their own row, and the other customer's row is deleted. */
  lemma PostAsWrittenConsumesForeignRow(s: Store, attrs: Attrs, body: Option<PostBody>)
    requires s == TwoCarts() && attrs == Attrs(Some("1"), None, None)
    requires body == Some(PostBody(Text("home"), Ids([1, 2])))
    ensures var r := HandlePostAsWritten(s, attrs, body);
            r.value.status == Created && 2 in s.cart && 2 !in r.store.cart
  {
    TwoCartsPlan();
    var entry := CartDao.Join(1, s.cart[1], s.products[1]);
    var p := Prepare(s, attrs, body);
    assert p.Ready? && p.picked == [entry] && p.requested == [1, 2];
    assert OrderDao.Demand(Lines([entry]), 1) == 1;
    assert OrderDao.Covered(s.products, Lines(p.picked));
    var ids := p.requested;
    assert Distinct(ids);
    assert forall i :: 0 <= i < |ids| ==> ids[i] in s.cart;
    PostAsWrittenCreatesIff(s, attrs, body);
    var r := HandlePostAsWritten(s, attrs, body);
    assert r.value.status == Created;
    assert r.store.cart == s.cart - ToSet(ids);
    assert 2 in ToSet(ids);
  }

  /** When the stock covers the lines and the cart ids are distinct existing rows, placing
      the order answers 201 and removes exactly those rows. */
  lemma PlaceCommits(s: Store, customerId: Int32, address: string, picked: seq<CartDao.CartEntry>,
                     cartIds: seq<int>)
    requires forall i :: 0 <= i < |picked| ==> Usable(picked[i])
    requires OrderDao.NonNegative(Lines(picked)) && OrderDao.Covered(s.products, Lines(picked))
    requires Distinct(cartIds) && forall i :: 0 <= i < |cartIds| ==> cartIds[i] in s.cart
    ensures var r := Place(s, customerId, address, picked, cartIds);
            r.value.status == Created && r.store.cart == s.cart - ToSet(cartIds)
  {
    var lines := Lines(picked);
    OrderDao.CreateOrderCommitsIff(s, customerId, Total(lines), address, lines, cartIds);
  }

  /** The fixed `doPost` places the same order and leaves the other customer's row alone. */
  lemma PostKeepsForeignRow(s: Store, attrs: Attrs, body: Option<PostBody>)
    requires s == TwoCarts() && attrs == Attrs(Some("1"), None, None)
    requires body == Some(PostBody(Text("home"), Ids([1, 2])))
    ensures var r := HandlePost(s, attrs, body);
            r.value.status == Created && 2 in r.store.cart && r.store.cart[2] == s.cart[2]
  {
    TwoCartsPlan();
    var picked := [CartDao.Join(1, s.cart[1], s.products[1])];
    var p := Prepare(s, attrs, body);
    assert p.Ready? && p.picked == picked && p.customerId == 1;
    assert OrderDao.Demand(Lines(picked), 1) == 1;
    assert OrderDao.Covered(s.products, Lines(p.picked));
    PostCreatesIff(s, attrs, body);
    var r := HandlePost(s, attrs, body);
    assert r.value.status == Created;
    assert s.cart[2].customerId != p.customerId;
  }

  // ---------------------------------------------------------------------------------------
  // GET, DELETE and PUT

  /** `doGet`: the own order list for no path or `/`; every order for `/all`, to
      administrators only; one order for `/{id}`, to its owner or an administrator. */
  function HandleGet(s: Store, attrs: Attrs, pathInfo: Option<string>): (r: Reply)
    ensures attrs.userId.None? ==> r == Plain(Unauthorized)
    ensures r.status == Ok ==> r.payload.OrderList? || r.payload.OrderDetail?
    ensures r.payload.OrderList? && pathInfo == Some("/all") ==> IsAdmin(attrs)
    ensures attrs.userId.Some? && ParseInt(attrs.userId.value).Some? && (pathInfo.None? || pathInfo == Some("/")) ==>
              r == Reply(Ok, OrderList(OrderDao.GetOrdersByCustomer(s, ParseInt(attrs.userId.value).value)))
    ensures attrs.userId.Some? && ParseInt(attrs.userId.value).Some? && pathInfo == Some("/all") ==>
              r == (if IsAdmin(attrs) then Reply(Ok, OrderList(OrderDao.GetAllOrders(s))) else Plain(Forbidden))
    ensures r.status == Ok && !IsAdmin(attrs) ==>
              && attrs.userId.Some? && ParseInt(attrs.userId.value).Some?
              && var me := ParseInt(attrs.userId.value).value;
                 && (r.payload.OrderList? ==> forall v :: v in r.payload.orders ==> v.customerId == me)
                 && (r.payload.OrderDetail? ==> r.payload.order.customerId == me)
  {
    match attrs.userId
    case None => Plain(Unauthorized)
    case Some(u) =>
      match ParseInt(u)
      case None => Plain(ServerError)
      case Some(customerId) =>
        if pathInfo.None? || pathInfo.value == "/" then
          Reply(Ok, OrderList(OrderDao.GetOrdersByCustomer(s, customerId)))
        else if pathInfo.value == "/all" then
          if IsAdmin(attrs) then Reply(Ok, OrderList(OrderDao.GetAllOrders(s))) else Plain(Forbidden)
        else
          var parts := Split(pathInfo.value, '/');
          if |parts| == 2 && parts[1] != "" then
            match ParseInt(parts[1])
            case None => Plain(BadRequest)
            case Some(orderId) =>
              match OrderDao.GetOrderById(s, orderId)
              case None => Plain(NotFound)
              case Some(order) =>
                if order.customerId != customerId && !IsAdmin(attrs) then Plain(Forbidden)
                else Reply(Ok, OrderDetail(order))
          else Plain(BadRequest)
  }

  /** `/{seg}` with a numeric `seg` addresses one order. */
  lemma OrderPath(seg: string, orderId: Int32)
    requires ParseInt(seg) == Some(orderId) && '/' !in seg
    ensures Split("/" + seg, '/') == ["", seg]
    ensures "/" + seg != "/" && "/" + seg != "/all"
  {
    SplitOneSegment(seg, '/', 0);
    assert [('/')] + seg + Repeat('/', 0) == "/" + seg;
    assert ParseInt("all") == None;
  }

  /** Reading one order: 404 when it (or its customer) is missing, 403 when the requester
      neither owns it nor is an administrator, and otherwise 200 with the order. */
  lemma GetOrderAccess(s: Store, attrs: Attrs, seg: string, orderId: Int32)
    requires attrs.userId.Some? && ParseInt(attrs.userId.value).Some?
    requires ParseInt(seg) == Some(orderId) && '/' !in seg
    ensures var r := HandleGet(s, attrs, Some("/" + seg));
            var found := OrderDao.GetOrderById(s, orderId);
            var owner := found.Some? && found.value.customerId == ParseInt(attrs.userId.value).value;
            && (r.status == NotFound <==> found.None?)
            && (r.status == Forbidden <==> found.Some? && !owner && !IsAdmin(attrs))
            && (r.status == Ok <==> found.Some? && (owner || IsAdmin(attrs)))
            && (r.status == Ok ==> r.payload == OrderDetail(found.value))
  {
    OrderPath(seg, orderId);
  }

  /** `doDelete`: the same checks as reading one order, then `deleteOrder`; 200 when it
      reports success, 500 otherwise. With no path the split dereferences `null`: 500. */
  function HandleDelete(s: Store, attrs: Attrs, pathInfo: Option<string>): (r: Step<Reply>)
    ensures attrs.userId.None? ==> r == Step(Plain(Unauthorized), s)
    ensures r.value.status != Ok ==> r.store == s
  {
    match attrs.userId
    case None => Step(Plain(Unauthorized), s)
    case Some(u) =>
      match ParseInt(u)
      case None => Step(Plain(ServerError), s)
      case Some(customerId) =>
        match pathInfo
        case None => Step(Plain(ServerError), s)
        case Some(path) =>
          var parts := Split(path, '/');
          if |parts| == 2 && parts[1] != "" then
            match ParseInt(parts[1])
            case None => Step(Plain(BadRequest), s)
            case Some(orderId) =>
              match OrderDao.GetOrderById(s, orderId)
              case None => Step(Plain(NotFound), s)
              case Some(order) =>
                if order.customerId != customerId && !IsAdmin(attrs) then Step(Plain(Forbidden), s)
                else
                  var result := OrderDao.DeleteOrder(s, orderId, customerId, IsAdmin(attrs));
                  if result.value then Step(Plain(Ok), result.store) else Step(Plain(ServerError), s)
          else Step(Plain(BadRequest), s)
  }

  /** Deleting one order: 404 when it (or its customer) is missing, 403 with nothing changed
      for a requester who neither owns it nor is an administrator, and otherwise 200 with the
      order and all its items gone. */
  lemma DeleteOrderAccess(s: Store, attrs: Attrs, seg: string, orderId: Int32)
    requires attrs.userId.Some? && ParseInt(attrs.userId.value).Some?
    requires ParseInt(seg) == Some(orderId) && '/' !in seg
    ensures var r := HandleDelete(s, attrs, Some("/" + seg));
            var found := OrderDao.GetOrderById(s, orderId);
            var owner := found.Some? && found.value.customerId == ParseInt(attrs.userId.value).value;
            && (r.value.status == NotFound <==> found.None?)
            && (r.value.status == Forbidden <==> found.Some? && !owner && !IsAdmin(attrs))
            && (r.value.status == Ok <==> found.Some? && (owner || IsAdmin(attrs)))
            && (r.value.status == Ok ==>
                  && orderId !in r.store.orders
                  && (forall k :: k in r.store.items ==> r.store.items[k].orderId != orderId))
  {
    OrderPath(seg, orderId);
  }

  /** The status a `PUT` body asks for: `orderStatus` when present, else `status`. `None` when
      neither is a string (the source's `null`); a non-string value is a cast failure, 500. */
  function RequestedStatus(b: StatusBody): (r: StatusChoice)
    ensures b.orderStatus.Text? ==> r == Given(b.orderStatus.text)
    ensures b.orderStatus.Missing? && b.status.Text? ==> r == Given(b.status.text)
    ensures b.orderStatus.Missing? && b.status.Missing? ==> r == Absent
    ensures b.orderStatus.NotText? || (b.orderStatus.Missing? && b.status.NotText?) ==> r == CastFailure
  {
    match b.orderStatus
    case Text(t) => Given(t)
    case NotText => CastFailure
    case Missing =>
      match b.status
      case Text(t) => Given(t)
      case NotText => CastFailure
      case Missing => Absent
  }

  datatype StatusChoice = Given(value: string) | Absent | CastFailure

  /** `doPut`: administrators only (403 for everyone else, before the path is looked at);
      the path must be `/{id}/status`; an absent or empty status is 400; then
      `updateOrderStatus` answers 200, or 404 when no order has that id. */
  function HandlePut(s: Store, attrs: Attrs, pathInfo: Option<string>, body: Option<StatusBody>): (r: Step<Reply>)
    ensures attrs.userId.None? ==> r == Step(Plain(Unauthorized), s)
    ensures attrs.userId.Some? && !IsAdmin(attrs) ==> r == Step(Plain(Forbidden), s)
    ensures r.value.status != Ok ==> r.store == s
    ensures r.store == s.(orders := r.store.orders)
  {
    if attrs.userId.None? then Step(Plain(Unauthorized), s)
    else if !IsAdmin(attrs) then Step(Plain(Forbidden), s)
    else
      match pathInfo
      case None => Step(Plain(ServerError), s)
      case Some(path) =>
        var parts := Split(path, '/');
        if |parts| == 3 && parts[2] == "status" && parts[1] != "" then
          match ParseInt(parts[1])
          case None => Step(Plain(BadRequest), s)
          case Some(orderId) =>
            match body
            case None => Step(Plain(ServerError), s)
            case Some(b) =>
              match RequestedStatus(b)
              case CastFailure => Step(Plain(ServerError), s)
              case Absent => Step(Plain(BadRequest), s)
              case Given(status) =>
                if status == "" then Step(Plain(BadRequest), s)
                else
                  var result := OrderDao.UpdateOrderStatus(s, orderId, status);
                  if result.value then Step(Plain(Ok), result.store) else Step(Plain(NotFound), s)
        else Step(Plain(BadRequest), s)
  }

  /** An administrator's status update on a well-formed path sets the order's status to the
      `orderStatus` field when it is a non-empty string, whatever `status` says, and leaves
      every other order as it was; 404 when there is no such order. */
  lemma PutStatusPrecedence(s: Store, attrs: Attrs, path: string, seg: string, orderId: Int32,
                            status: string, other: Field)
    requires attrs.userId.Some? && IsAdmin(attrs)
    requires Split(path, '/') == ["", seg, "status"] && ParseInt(seg) == Some(orderId)
    requires status != ""
    ensures var r := HandlePut(s, attrs, Some(path), Some(StatusBody(Text(status), other)));
            && (r.value.status == Ok <==> orderId in s.orders)
            && (r.value.status == NotFound <==> orderId !in s.orders)
            && (r.value.status == Ok ==>
                  && r.store.orders[orderId] == s.orders[orderId].(status := status)
                  && forall k :: k in s.orders && k != orderId ==> r.store.orders[k] == s.orders[k])
  {
  }

  /** An empty status, or a body with neither field, is answered with 400 and changes
      nothing. */
  lemma PutRejectsEmptyStatus(s: Store, attrs: Attrs, path: string, seg: string, orderId: Int32, b: StatusBody)
    requires attrs.userId.Some? && IsAdmin(attrs)
    requires Split(path, '/') == ["", seg, "status"] && ParseInt(seg) == Some(orderId)
    requires RequestedStatus(b) == Absent || RequestedStatus(b) == Given("")
    ensures HandlePut(s, attrs, Some(path), Some(b)) == Step(Plain(BadRequest), s)
  {
  }
}

=== FILE: product_dao.dfy ===
/** The catalog (dao/ProductDAO.java). Products are never removed: deleting one sets its
    `deleted` flag, and every read and update ignores flagged rows. */
module ProductDao {
  import opened Wrappers
  import opened JavaLang
  import opened Model

  /** The fields of a product as the servlet hands them to the DAO. */
  datatype ProductInput = ProductInput(
    name: string,
    description: string,
    price: Option<Money>,
    stock: Int32,
    imageUrl: string)

  predicate Live(ps: map<int, Product>, k: int) {
    k in ps && !ps[k].deleted
  }

  /** The first of `keys` holding a live product called `name`. */
  function FirstLiveNamed(ps: map<int, Product>, keys: seq<int>, name: string): (r: Option<int>)
    ensures r.Some? ==> r.value in keys && Live(ps, r.value) && ps[r.value].name == name
    ensures r.Some? ==> forall i :: 0 <= i < |keys| && keys[i] < r.value && Increasing(keys) ==>
                          !(Live(ps, keys[i]) && ps[keys[i]].name == name)
    ensures r.None? ==> forall k :: k in keys && Live(ps, k) ==> ps[k].name != name
  {
    if |keys| == 0 then None
    else if Live(ps, keys[0]) && ps[keys[0]].name == name then Some(keys[0])
    else FirstLiveNamed(ps, keys[1..], name)
  }

  /** The row `SELECT id, stock_quantity FROM product WHERE name = ? AND is_deleted = 0`
      returns first (primary-key order). */
  function LiveNamed(s: Store, name: string): Option<int> {
    FirstLiveNamed(s.products, KeysBetween(s.products.Keys, 1, s.nextProductId), name)
  }

  /** `createProduct` as written: merging into a live product of the same name adds the stocks
      in Java `int` arithmetic, which wraps past `IntMax`. The caller (ProductServlet) has
      rejected a missing price and clamped price and stock to at least zero. */
  function CreateProductAsWritten(s: Store, p: ProductInput): (r: Step<bool>)
    requires p.stock >= 0 && p.price.Some? && p.price.value >= 0.0
    ensures r.value
    ensures LiveNamed(s, p.name).Some? ==>
              var id := LiveNamed(s, p.name).value;
              && r.store == s.(products := r.store.products)
              && r.store.products.Keys == s.products.Keys
              && (forall k :: k in s.products && k != id ==> r.store.products[k] == s.products[k])
              && r.store.products[id] == s.products[id].(stock := AddInt(s.products[id].stock, p.stock),
                                                         description := p.description, price := p.price,
                                                         imageUrl := p.imageUrl)
    ensures LiveNamed(s, p.name).None? ==> r == Insert(s, p)
  {
    match LiveNamed(s, p.name)
    case Some(id) =>
      var existing := s.products[id];
      var merged := existing.(stock := AddInt(existing.stock, p.stock), description := p.description,
                              price := p.price, imageUrl := p.imageUrl);
      Step(true, s.(products := s.products[id := merged]))
    case None =>
      Insert(s, p)
  }

  /** `INSERT INTO product (name, description, price, stock_quantity, image_url)`: a new live row
      under the next auto-increment key. */
  function Insert(s: Store, p: ProductInput): (r: Step<bool>)
    ensures r.value
    ensures r.store.products.Keys == s.products.Keys + {s.nextProductId}
    ensures r.store.products[s.nextProductId]
              == Product(s.nextProductId, p.name, p.description, p.price, p.stock, p.imageUrl, false)
    ensures forall k :: k in s.products && k != s.nextProductId ==> r.store.products[k] == s.products[k]
    ensures r.store.nextProductId == s.nextProductId + 1
    ensures r.store == s.(products := r.store.products, nextProductId := r.store.nextProductId)
  {
    var id := s.nextProductId;
    Step(true, s.(products := s.products[id := Product(id, p.name, p.description, p.price, p.stock, p.imageUrl, false)],
                  nextProductId := id + 1))
  }

  /** `createProduct` with the merge computed exactly: a merged stock beyond `IntMax` is refused
      and nothing changes. Otherwise identical to `CreateProductAsWritten`. */
  function CreateProduct(s: Store, p: ProductInput): (r: Step<bool>)
    requires p.stock >= 0 && p.price.Some? && p.price.value >= 0.0
    ensures !r.value ==> r.store == s
    ensures LiveNamed(s, p.name).Some? ==>
              var id := LiveNamed(s, p.name).value;
              && r.store.products.Keys == s.products.Keys
              && r.store.nextProductId == s.nextProductId
              && (r.value <==> s.products[id].stock + p.stock <= IntMax)
              && (r.value ==> r.store.products[id].stock == s.products[id].stock + p.stock)
    ensures LiveNamed(s, p.name).None? ==> r.value && r.store == Insert(s, p).store
  {
    match LiveNamed(s, p.name)
    case Some(id) =>
      var existing := s.products[id];
      if existing.stock + p.stock > IntMax then Step(false, s)
      else
        var merged := existing.(stock := existing.stock + p.stock, description := p.description,
                                price := p.price, imageUrl := p.imageUrl);
        Step(true, s.(products := s.products[id := merged]))
    case None =>
      Insert(s, p)
  }

  /** Merging into an existing product overwrites description, price and image, keeps the
      name, id and flag, adds the stock, and leaves every other product alone. */
  lemma CreateProductMerges(s: Store, p: ProductInput, id: int)
    requires p.stock >= 0 && p.price.Some? && p.price.value >= 0.0
    requires LiveNamed(s, p.name) == Some(id)
    requires CreateProduct(s, p).value
    ensures var q := CreateProduct(s, p).store.products[id];
            && q.name == p.name && q.id == s.products[id].id && !q.deleted
            && q.description == p.description && q.price == p.price && q.imageUrl == p.imageUrl
            && q.stock == s.products[id].stock + p.stock
    ensures forall k :: k in s.products && k != id ==> CreateProduct(s, p).store.products[k] == s.products[k]
    ensures CreateProduct(s, p).store.cart == s.cart && CreateProduct(s, p).store.orders == s.orders
  {
  }

  /** A name held only by soft-deleted products is free: creating it inserts a new row. */
  lemma CreateProductIgnoresDeletedNames(s: Store, p: ProductInput)
    requires Valid(s)
    requires p.stock >= 0 && p.price.Some? && p.price.value >= 0.0
    requires forall k :: k in s.products && s.products[k].name == p.name ==> s.products[k].deleted
    ensures CreateProduct(s, p).value
    ensures CreateProduct(s, p).store.products.Keys == s.products.Keys + {s.nextProductId}
    ensures s.nextProductId !in s.products
  {
  }

  lemma CreateProductPreservesValid(s: Store, p: ProductInput)
    requires Valid(s)
    requires p.stock >= 0 && p.price.Some? && p.price.value >= 0.0
    ensures Valid(CreateProduct(s, p).store)
  {
    var r := CreateProduct(s, p).store;
    match LiveNamed(s, p.name)
    case Some(id) =>
      if CreateProduct(s, p).value {
        assert r.products == s.products[id := r.products[id]];
        ProductsValidUpdate(s.products, id, r.products[id]);
      }
      ProductsChangeOnly(s, r);
    case None =>
      assert KeysBelow(r.products, r.nextProductId);
      ProductsChangeOnly(s, r);
  }

  /** A change confined to the product table keeps the store valid when the products do. */
  lemma ProductsChangeOnly(s: Store, t: Store)
    requires Valid(s)
    requires t == s.(products := t.products, nextProductId := t.nextProductId)
    requires KeysBelow(t.products, t.nextProductId) && ProductsValid(t.products)
    ensures Valid(t)
  {
  }

  /** The merge as written can store a negative stock: a live product holding `IntMax` units
      that is created again with one more unit ends with `IntMin` units. */
  lemma CreateProductAsWrittenOverflows()
    ensures var p := Product(1, "A", "", Some(1.0), IntMax, "", false);
            var s := Empty().(products := map[1 := p], nextProductId := 2);
            var r := CreateProductAsWritten(s, ProductInput("A", "", Some(1.0), 1, ""));
            && Valid(s)
            && r.value
            && r.store.products[1].stock == IntMin
            && !Valid(r.store)
  {
    var p := Product(1, "A", "", Some(1.0), IntMax, "", false);
    var s := Empty().(products := map[1 := p], nextProductId := 2);
    assert KeysBetween(s.products.Keys, 1, 2) == [1] by {
      assert 1 in KeysBetween(s.products.Keys, 1, 2);
    }
    assert LiveNamed(s, "A") == Some(1);
  }

  // ---------------------------------------------------------------------------------------
  // Reads

  /** The live products among `keys`, last key first. */
  function LiveDescending(ps: map<int, Product>, keys: seq<int>): (r: seq<Product>)
    ensures forall i :: 0 <= i < |r| ==> r[i] in ps.Values && !r[i].deleted
    ensures forall k :: k in keys && Live(ps, k) ==> ps[k] in r
    ensures (forall k :: k in ps ==> ps[k].id == k) ==> forall i :: 0 <= i < |r| ==> r[i].id in keys
    ensures (Increasing(keys) && forall k :: k in ps ==> ps[k].id == k) ==>
              forall i, j :: 0 <= i < j < |r| ==> r[i].id > r[j].id
  {
    if |keys| == 0 then []
    else
      var rest := LiveDescending(ps, keys[1..]);
      var here := if Live(ps, keys[0]) then [ps[keys[0]]] else [];
      assert forall k :: k in keys[1..] ==> k in keys;
      rest + here
  }

  /** `getAllProducts`: `SELECT * FROM product WHERE is_deleted = 0 ORDER BY id DESC`. */
  function GetAllProducts(s: Store): (r: seq<Product>)
    ensures forall i :: 0 <= i < |r| ==> r[i] in s.products.Values && !r[i].deleted
    ensures Valid(s) ==> forall k :: Live(s.products, k) ==> s.products[k] in r
    ensures Valid(s) ==> forall i, j :: 0 <= i < j < |r| ==> r[i].id > r[j].id
  {
    LiveDescending(s.products, KeysBetween(s.products.Keys, 1, s.nextProductId))
  }

  /** `getProductById`: the product, unless it is missing or soft-deleted. */
  function GetProductById(s: Store, id: int): (r: Option<Product>)
    ensures r.Some? <==> Live(s.products, id)
    ensures r.Some? ==> r.value == s.products[id]
  {
    if Live(s.products, id) then Some(s.products[id]) else None
  }

  /** `updateProduct`: `UPDATE product SET name, description, price, stock_quantity, image_url
      WHERE id = ? AND is_deleted = 0`. The servlet puts no bound on the new stock. */
  function UpdateProduct(s: Store, id: int, p: ProductInput): (r: Step<bool>)
    ensures r.value <==> Live(s.products, id)
    ensures !r.value ==> r.store == s
    ensures r.value ==> r.store.products == s.products[id := Product(s.products[id].id, p.name, p.description,
                                                                     p.price, p.stock, p.imageUrl, false)]
    ensures r.store == s.(products := r.store.products)
  {
    if Live(s.products, id) then
      var current := s.products[id];
      Step(true, s.(products := s.products[id := current.(name := p.name, description := p.description, price := p.price,
                                                       stock := p.stock, imageUrl := p.imageUrl)]))
    else Step(false, s)
  }

  /** An update keeps the store valid when the new stock is not negative. */
  lemma UpdateProductPreservesValid(s: Store, id: int, p: ProductInput)
    requires Valid(s) && p.stock >= 0
    ensures Valid(UpdateProduct(s, id, p).store)
  {
  }

  /** Over a valid store, an update keeps the store valid exactly when it misses (no live row)
      or its stock is not negative: a negative stock is stored as it is and breaks the
      invariant. */
  lemma UpdateProductValidIff(s: Store, id: int, p: ProductInput)
    requires Valid(s)
    ensures Valid(UpdateProduct(s, id, p).store) <==> (!Live(s.products, id) || p.stock >= 0)
  {
    if Live(s.products, id) && p.stock < 0 {
      var after := UpdateProduct(s, id, p).store;
      assert id in after.products && after.products[id].stock < 0;
      assert !ProductsValid(after.products);
    } else if Live(s.products, id) {
      UpdateProductPreservesValid(s, id, p);
    }
  }

  /** `deleteProduct`: `UPDATE product SET is_deleted = 1 WHERE id = ?`. The row stays, and
      since the flag is not in the WHERE clause a second delete also reports success. */
  function DeleteProduct(s: Store, id: int): (r: Step<bool>)
    ensures r.value <==> id in s.products
    ensures r.store.products.Keys == s.products.Keys
    ensures r.value ==> r.store.products[id] == s.products[id].(deleted := true)
    ensures forall k :: k in s.products && k != id ==> r.store.products[k] == s.products[k]
    ensures r.store == s.(products := r.store.products)
  {
    if id in s.products then
      Step(true, s.(products := s.products[id := s.products[id].(deleted := true)]))
    else Step(false, s)
  }

  /** Deleting twice is the same as deleting once, and both calls succeed. */
  lemma DeleteProductIdempotent(s: Store, id: int)
    requires id in s.products
    ensures var once := DeleteProduct(s, id);
            var twice := DeleteProduct(once.store, id);
            once.value && twice.value && twice.store == once.store
  {
  }

  /** A deleted product disappears from both read paths but keeps its row. */
  lemma DeletedProductInvisible(s: Store, id: int)
    requires id in s.products
    ensures var t := DeleteProduct(s, id).store;
            && GetProductById(t, id).None?
            && t.products[id] !in GetAllProducts(t)
            && id in t.products
  {
  }

  lemma DeleteProductPreservesValid(s: Store, id: int)
    requires Valid(s)
    ensures Valid(DeleteProduct(s, id).store)
  {
  }
}

=== FILE: router.dfy ===
/** The client-side navigation guard (frontend/src/router/index.ts): the route table with its
    `meta` flags, the flags a nested route inherits from its parent, and the `beforeEach`
    decision as a pure function of the target route and the login state. Matching a URL to a
    route is the router library's business and is not modelled; a navigation is modelled by
    the route it resolves to. */
module Router {
  import opened Wrappers

  /** The route names: `login`, `register`, `home`, `cart`, `profile`, `admin-dashboard`,
      `admin-products`, `admin-product-add`, `admin-product-edit`, `admin-orders`,
      `admin-stats` and `admin-order-detail`. */
  datatype Name =
    | Login | Register | Home | CartPage | Profile
    | AdminDashboard | AdminProducts | AdminProductAdd | AdminProductEdit
    | AdminOrders | AdminStats | AdminOrderDetail

  /** A route record's `meta`: each flag is either set or absent. */
  datatype Meta = Meta(requiresAuth: Option<bool>, requiresAdmin: Option<bool>)

  const NoMeta: Meta := Meta(None, None)
  const AuthOnly: Meta := Meta(Some(true), None)
  const AdminOnly: Meta := Meta(Some(true), Some(true))

  /** A route record: its path (absolute, or relative to the parent), its name, its own `meta`,
      and its nested routes. */
  datatype Record = Record(path: string, name: Name, meta: Meta, children: seq<Record>)

  /** A resolved route: its name and the meta the router hands the guard. */
  datatype Entry = Entry(name: Name, meta: Meta)

  /** The target of a navigation: a named route, or a location no route matches (no name and
      empty meta). */
  datatype Target = Target(name: Option<Name>, meta: Meta)

  /** The login state the guard reads (stores/auth.ts). `isAuthenticated` is the token taken as
      a truth value, so an empty token counts as logged out. */
  datatype Session = Session(token: Option<string>, isAdmin: bool)

  datatype Decision = Allow | Redirect(name: Name)

  predicate Authenticated(s: Session) {
    s.token.Some? && s.token.value != ""
  }

  /** A meta flag as the guard tests it: absent is false. */
  predicate Flag(f: Option<bool>) {
    f == Some(true)
  }

  /** The meta of a nested route: the router merges the meta of every matched record, parent
      first, so a child's own flags override the ones it inherits. */
  function Merge(parent: Meta, child: Meta): (r: Meta)
    ensures child.requiresAuth.Some? ==> r.requiresAuth == child.requiresAuth
    ensures child.requiresAuth.None? ==> r.requiresAuth == parent.requiresAuth
    ensures child.requiresAdmin.Some? ==> r.requiresAdmin == child.requiresAdmin
    ensures child.requiresAdmin.None? ==> r.requiresAdmin == parent.requiresAdmin
  {
    Meta(if child.requiresAuth.Some? then child.requiresAuth else parent.requiresAuth,
         if child.requiresAdmin.Some? then child.requiresAdmin else parent.requiresAdmin)
  }

  /** Merging is a monoid with the empty meta as unit: a nested route's meta does not depend
      on how the chain of matched records is grouped. */
  lemma MergeLaws(a: Meta, b: Meta, c: Meta)
    ensures Merge(NoMeta, a) == a && Merge(a, NoMeta) == a
    ensures Merge(Merge(a, b), c) == Merge(a, Merge(b, c))
  {
  }

  /** The route table. */
  function Routes(): seq<Record> {
    [ Record("/login", Login, NoMeta, []),
      Record("/register", Register, NoMeta, []),
      Record("/", Home, NoMeta, []),
      Record("/cart", CartPage, AuthOnly, []),
      Record("/profile", Profile, AuthOnly, []),
      AdminRoute() ]
  }

  /** The `/admin` route: it needs login and the administrator flag and holds the six admin
      views, which set no flags of their own. */
  function AdminRoute(): Record {
    Record("/admin", AdminDashboard, AdminOnly,
      [ Record("products", AdminProducts, NoMeta, []),
        Record("products/add", AdminProductAdd, NoMeta, []),
        Record("products/edit/:id", AdminProductEdit, NoMeta, []),
        Record("orders", AdminOrders, NoMeta, []),
        Record("stats", AdminStats, NoMeta, []),
        Record("orders/:id", AdminOrderDetail, NoMeta, []) ])
  }

  /** Every record of `rs` and of its descendants, parents before children, each with its
      merged meta. */
  function Flatten(rs: seq<Record>, inherited: Meta): (r: seq<Entry>)
    ensures |r| >= |rs|
    decreases rs
  {
    if rs == [] then []
    else
      var head := rs[0];
      assert head in rs;
      var meta := Merge(inherited, head.meta);
      [Entry(head.name, meta)] + Flatten(head.children, meta) + Flatten(rs[1..], inherited)
  }

  /** The resolved routes of the table. */
  function Table(): seq<Entry> {
    Flatten(Routes(), NoMeta)
  }

  /** The flags each route requires once resolved (`TableEntries` shows that the table agrees). */
  function FlagsOf(n: Name): Meta {
    match n
    case Login | Register | Home => NoMeta
    case CartPage | Profile => AuthOnly
    case _ => AdminOnly
  }

  /** Navigating to a route by name: the guard sees that route's resolved flags. */
  function Named(n: Name): Target {
    Target(Some(n), FlagsOf(n))
  }

  /** `beforeEach`: a route needing login redirects an unauthenticated visitor to `login`
      (checked first); a route needing admin redirects a non-admin to `home`; a logged-in
      visitor going to `login` is sent to `admin-products` if admin and to `home` otherwise;
      everything else proceeds. */
  function Guard(to: Target, s: Session): (d: Decision)
    ensures Flag(to.meta.requiresAuth) && !Authenticated(s) ==> d == Redirect(Login)
    ensures d.Redirect? ==> d.name in {Login, Home, AdminProducts}
    ensures d == Allow <==>
              && (Flag(to.meta.requiresAuth) ==> Authenticated(s))
              && (Flag(to.meta.requiresAdmin) ==> s.isAdmin)
              && !(to.name == Some(Login) && Authenticated(s))
  {
    if Flag(to.meta.requiresAuth) && !Authenticated(s) then Redirect(Login)
    else if Flag(to.meta.requiresAdmin) && !s.isAdmin then Redirect(Home)
    else if to.name == Some(Login) && Authenticated(s) then
      (if s.isAdmin then Redirect(AdminProducts) else Redirect(Home))
    else Allow
  }

  // ---------------------------------------------------------------------------------------
  // The resolved table

  /** Records without children contribute one entry each, in order. */
  lemma {:induction false} FlattenLeaves(rs: seq<Record>, inherited: Meta)
    requires forall i :: 0 <= i < |rs| ==> rs[i].children == []
    ensures Flatten(rs, inherited)
         == seq(|rs|, i requires 0 <= i < |rs| => Entry(rs[i].name, Merge(inherited, rs[i].meta)))
    decreases rs
  {
    if rs != [] {
      FlattenLeaves(rs[1..], inherited);
      assert rs[0].children == [];
    }
  }

  /** Child routes that set no flags of their own see exactly their parent's flags. */
  lemma {:induction false} FlattenInherits(rs: seq<Record>, inherited: Meta)
    requires forall i :: 0 <= i < |rs| ==> rs[i].meta == NoMeta && rs[i].children == []
    ensures forall e :: e in Flatten(rs, inherited) ==> e.meta == inherited
    decreases rs
  {
    if rs != [] {
      FlattenInherits(rs[1..], inherited);
      assert rs[0].children == [];
      assert Flatten(rs, inherited) == [Entry(rs[0].name, Merge(inherited, NoMeta))] + Flatten(rs[1..], inherited);
    }
  }

  /** Every route nested in `/admin`, and `/admin` itself, needs login and the administrator
      flag. */
  lemma AdminSubtreeFlags()
    ensures forall e :: e in Flatten([AdminRoute()], NoMeta) ==> e.meta == AdminOnly && e.name != Login
  {
    var admin := AdminRoute();
    assert [admin][1..] == [];
    FlattenInherits(admin.children, AdminOnly);
    FlattenLeaves(admin.children, AdminOnly);
    assert Flatten([admin], NoMeta) == [Entry(AdminDashboard, AdminOnly)] + Flatten(admin.children, AdminOnly);
  }

  /** The table resolved: twelve routes, each with the flags `FlagsOf` its name. */
  lemma TableEntries()
    ensures Table() == [
      Entry(Login, NoMeta), Entry(Register, NoMeta), Entry(Home, NoMeta),
      Entry(CartPage, AuthOnly), Entry(Profile, AuthOnly),
      Entry(AdminDashboard, AdminOnly), Entry(AdminProducts, AdminOnly),
      Entry(AdminProductAdd, AdminOnly), Entry(AdminProductEdit, AdminOnly),
      Entry(AdminOrders, AdminOnly), Entry(AdminStats, AdminOnly), Entry(AdminOrderDetail, AdminOnly) ]
  {
    var rs := Routes();
    FlattenSplit(rs, 5, NoMeta);
    TopLevelEntries();
    assert rs[5..] == [AdminRoute()];
    AdminEntries();
  }

  /** The five top-level routes outside `/admin`, resolved. */
  lemma TopLevelEntries()
    ensures Flatten(Routes()[..5], NoMeta) == [
      Entry(Login, NoMeta), Entry(Register, NoMeta), Entry(Home, NoMeta),
      Entry(CartPage, AuthOnly), Entry(Profile, AuthOnly) ]
  {
    FlattenLeaves(Routes()[..5], NoMeta);
  }

  /** The `/admin` route and its six children, resolved. */
  lemma AdminEntries()
    ensures Flatten([AdminRoute()], NoMeta) == [
      Entry(AdminDashboard, AdminOnly), Entry(AdminProducts, AdminOnly),
      Entry(AdminProductAdd, AdminOnly), Entry(AdminProductEdit, AdminOnly),
      Entry(AdminOrders, AdminOnly), Entry(AdminStats, AdminOnly), Entry(AdminOrderDetail, AdminOnly) ]
  {
    var admin := AdminRoute();
    assert [admin][1..] == [];
    FlattenLeaves(admin.children, AdminOnly);
  }

  /** Flattening distributes over cutting the record list in two. */
  lemma {:induction false} FlattenSplit(rs: seq<Record>, k: nat, inherited: Meta)
    requires k <= |rs|
    ensures Flatten(rs, inherited) == Flatten(rs[..k], inherited) + Flatten(rs[k..], inherited)
    decreases k
  {
    if k > 0 {
      FlattenSplit(rs[1..], k - 1, inherited);
      assert rs[1..][..k - 1] == rs[..k][1..];
      assert rs[1..][k - 1..] == rs[k..];
      assert rs[..k][0] == rs[0];
    } else {
      assert rs[..k] == [];
      assert rs[k..] == rs;
    }
  }

  /** Each route of the table carries the flags `FlagsOf` its name. */
  lemma TableFlags()
    ensures forall e :: e in Table() ==> e.meta == FlagsOf(e.name)
  {
    TableEntries();
    var t := Table();
    forall e | e in t
      ensures e.meta == FlagsOf(e.name)
    {
      var i :| 0 <= i < |t| && t[i] == e;
      assert i < 12;
    }
  }

  /** Every name has a route in the table. */
  lemma TableNamesAll(n: Name)
    ensures Entry(n, FlagsOf(n)) in Table()
  {
    TableEntries();
  }

  // ---------------------------------------------------------------------------------------
  // Properties of the guard over the table

  /** A redirect always lands on a route the guard lets through in the same session, so a
      navigation is redirected at most once. */
  lemma RedirectSettles(to: Target, s: Session)
    requires Guard(to, s).Redirect?
    ensures Guard(Named(Guard(to, s).name), s) == Allow
  {
  }

  /** Every route of the `/admin` subtree is reached only by a logged-in administrator; an
      anonymous visitor is sent to `login` and a logged-in non-administrator to `home`. */
  lemma AdminRoutesGuarded(e: Entry, s: Session)
    requires e in Flatten([AdminRoute()], NoMeta)
    ensures var d := Guard(Target(Some(e.name), e.meta), s);
            && (d == Allow <==> Authenticated(s) && s.isAdmin)
            && (!Authenticated(s) ==> d == Redirect(Login))
            && (Authenticated(s) && !s.isAdmin ==> d == Redirect(Home))
  {
    AdminSubtreeFlags();
  }

  /** The public routes other than `login` (registration and the product list) are open to
      everyone; `login` is open exactly to visitors who are not logged in. */
  lemma PublicRoutesOpen(s: Session)
    ensures Guard(Named(Register), s) == Allow
    ensures Guard(Named(Home), s) == Allow
    ensures Guard(Named(Login), s) == Allow <==> !Authenticated(s)
  {
  }

  /** The cart and the profile need a login but no administrator flag. */
  lemma MemberRoutesNeedLogin(s: Session)
    ensures Guard(Named(CartPage), s) == (if Authenticated(s) then Allow else Redirect(Login))
    ensures Guard(Named(Profile), s) == (if Authenticated(s) then Allow else Redirect(Login))
  {
  }

  /** A location no route matches has no name and no flags and is let through. */
  lemma UnmatchedAllowed(s: Session)
    ensures Guard(Target(None, NoMeta), s) == Allow
  {
  }
}

=== FILE: stats_servlet.dfy ===
/** The request handling of the sales statistics endpoint (servlet/StatsServlet.java): which
    statistic is asked for and with which parameters. The statistics themselves are SQL
    aggregations and are not modelled; a reply names the query the servlet would run. */
module StatsServlet {
  import opened Wrappers
  import opened JavaLang
  import opened Http

  /** The current date and year as strings, and the two window starts the servlet derives
      from today (6 and 29 days back). The clock is an input. */
  datatype Clock = Clock(today: string, weekStart: string, monthStart: string, year: string)

  /** The query parameters the servlet reads. */
  datatype Params = Params(startDate: Option<string>, endDate: Option<string>, year: Option<string>,
                           limit: Option<string>)

  /** The statistics query a request resolves to. */
  datatype Query =
    | Overview(start: string, end: string, year: string, top: int)
    | Daily(start: string, end: string)
    | Monthly(year: string)
    | Top(limit: int)
    | StatusCounts

  datatype StatsReply = Answer(query: Query) | Error(status: int)

  const DefaultLimit: int := 10
  const MaxLimit: int := 100

  /** The `limit` parameter of `/top`: 10 when absent or not an `int`; a parsed value of zero
      or less becomes 10 and one above 100 becomes 100. */
  function ClampLimit(param: Option<string>): (r: int)
    ensures 1 <= r <= MaxLimit
    ensures param.None? ==> r == DefaultLimit
    ensures param.Some? && ParseInt(param.value).None? ==> r == DefaultLimit
    ensures param.Some? && ParseInt(param.value).Some? ==>
              var v := ParseInt(param.value).value;
              && (v <= 0 ==> r == DefaultLimit)
              && (v > MaxLimit ==> r == MaxLimit)
              && (1 <= v <= MaxLimit ==> r == v)
  {
    match param
    case None => DefaultLimit
    case Some(text) =>
      match ParseInt(text)
      case None => DefaultLimit
      case Some(v) => if v <= 0 then DefaultLimit else if v > MaxLimit then MaxLimit else v
  }

  /** Every limit the clamp can produce is kept as it is when sent again: the clamp is a
      projection onto 1..100. */
  lemma ClampLimitIdempotent(param: Option<string>)
    ensures ClampLimit(Some(ShowInt(ClampLimit(param)))) == ClampLimit(param)
  {
    ParseShowRoundTrip(ClampLimit(param));
  }

  /** `doGet`: 401 without a user; the overview for no path or `/`; otherwise the path must be
      one non-empty segment, whose lower-cased value picks the statistic (400 for anything
      else). */
  function HandleStats(attrs: Attrs, pathInfo: Option<string>, params: Params, clock: Clock): (r: StatsReply)
    ensures attrs.userId.None? ==> r == Error(Unauthorized)
    ensures r.Error? ==> r.status in {Unauthorized, BadRequest}
    ensures attrs.userId.Some? && r.Error? ==> r.status == BadRequest
    ensures r.Answer? && r.query.Top? ==> 1 <= r.query.limit <= MaxLimit && r.query.limit == ClampLimit(params.limit)
    ensures r.Answer? && r.query.Monthly? ==> r.query.year == params.year.GetOr(clock.year)
    ensures attrs.userId.Some? && (pathInfo.None? || pathInfo == Some("/")) ==>
              r == Answer(Overview(clock.monthStart, clock.today, clock.year, DefaultLimit))
  {
    if attrs.userId.None? then Error(Unauthorized)
    else if pathInfo.None? || pathInfo.value == "/" then
      Answer(Overview(clock.monthStart, clock.today, clock.year, DefaultLimit))
    else
      var parts := Split(pathInfo.value, '/');
      if |parts| == 2 && parts[1] != "" then
        var kind := ToLower(parts[1]);
        if kind == "daily" then
          if params.startDate.None? || params.endDate.None? then Answer(Daily(clock.weekStart, clock.today))
          else Answer(Daily(params.startDate.value, params.endDate.value))
        else if kind == "monthly" then Answer(Monthly(params.year.GetOr(clock.year)))
        else if kind == "top" then Answer(Top(ClampLimit(params.limit)))
        else if kind == "status" then Answer(StatusCounts)
        else Error(BadRequest)
      else Error(BadRequest)
  }

  predicate KnownKind(kind: string) {
    kind == "daily" || kind == "monthly" || kind == "top" || kind == "status"
  }

  /** A one-segment path `/seg` is answered exactly when `seg`, lower-cased, names one of the
      four statistics (any other kind is a 400), and the answer depends on `seg` only through
      its lower-case form. */
  lemma StatsKindCaseInsensitive(attrs: Attrs, seg: string, params: Params, clock: Clock)
    requires attrs.userId.Some? && seg != "" && '/' !in seg
    ensures var r := HandleStats(attrs, Some("/" + seg), params, clock);
            && (r.Answer? <==> KnownKind(ToLower(seg)))
            && (!KnownKind(ToLower(seg)) ==> r == Error(BadRequest))
            && r == HandleStats(attrs, Some("/" + ToLower(seg)), params, clock)
  {
    OneSegmentPath(seg);
    var low := ToLower(seg);
    assert '/' !in low by {
      forall i | 0 <= i < |low|
        ensures low[i] != '/'
      {
        assert seg[i] != '/';
      }
    }
    ToLowerIdempotent(seg);
    OneSegmentPath(low);
  }

  /** Which query each statistic asks for, on a one-segment path: `/top` the clamped limit,
      `/monthly` the given year or this year, `/status` the status counts, and `/daily` with
      both dates the given range. */
  lemma StatsDispatch(attrs: Attrs, seg: string, params: Params, clock: Clock)
    requires attrs.userId.Some? && seg != "" && '/' !in seg
    ensures var r := HandleStats(attrs, Some("/" + seg), params, clock);
            && (ToLower(seg) == "top" ==> r == Answer(Top(ClampLimit(params.limit))))
            && (ToLower(seg) == "monthly" ==> r == Answer(Monthly(params.year.GetOr(clock.year))))
            && (ToLower(seg) == "status" ==> r == Answer(StatusCounts))
            && (ToLower(seg) == "daily" && params.startDate.Some? && params.endDate.Some? ==>
                  r == Answer(Daily(params.startDate.value, params.endDate.value)))
  {
    OneSegmentPath(seg);
  }

  /** `/seg` for a non-empty `seg` without `/` splits into an empty string and `seg`. */
  lemma OneSegmentPath(seg: string)
    requires seg != "" && '/' !in seg
    ensures Split("/" + seg, '/') == ["", seg]
  {
    SplitOneSegment(seg, '/', 0);
    assert [('/')] + seg + Repeat('/', 0) == "/" + seg;
  }

  /** With either date missing, both are replaced by the seven-day window ending today. */
  lemma DailyDefaultsTogether(attrs: Attrs, seg: string, params: Params, clock: Clock)
    requires attrs.userId.Some? && '/' !in seg && ToLower(seg) == "daily"
    requires params.startDate.None? || params.endDate.None?
    ensures HandleStats(attrs, Some("/" + seg), params, clock) == Answer(Daily(clock.weekStart, clock.today))
  {
    assert |seg| == 5;
    OneSegmentPath(seg);
  }

  /** A path that is neither empty nor `/` and does not split into exactly one non-empty
      segment is a bad request. */
  lemma MalformedPathRejected(attrs: Attrs, path: string, params: Params, clock: Clock)
    requires attrs.userId.Some? && path != "/"
    requires |Split(path, '/')| != 2 || Split(path, '/')[1] == ""
    ensures HandleStats(attrs, Some(path), params, clock) == Error(BadRequest)
  {
  }
}

=== FILE: wrappers.dfy ===
/** Optional values used throughout the model: a Java reference that may be
    `null`, or a lookup that may find no row, is an `Option`. */
module Wrappers {

  datatype Option<+T> = None | Some(value: T) {

    /** The value, or `default` when there is none (Java's `x == null ? default : x`). */
    function GetOr(default: T): T {
      match this
      case Some(v) => v
      case None => default
    }
  }
}
